=== FILE: README.md ===
# Shop API core in Dafny

This project models the request handlers of an Express/Mongoose shop API and
proves properties about them. The document store, the cache, the mail queue,
the payment provider and the crypto libraries are abstract values. The model
covers:

- **Accounts and sessions** (`Auth`, `LegacyAuth`, `UserAdmin`, `Users`):
  - register, login, logout, forgot/reset password, verify e-mail;
  - the `saveTokenInfo` session record;
  - the older stateless register/login/logout;
  - the user-profile handlers;
  - the account schema, its Joi validators and the pre-save hashing rule.
- **The request gate** (`Gate`, `Jwt`): `authenticateUser` and
  `authorizePermissions` over an abstract JWT signer whose tokens carry an
  `exp` claim (section 4.1.4 of RFC 7519), the `token` cookie with its
  HttpOnly and Secure attributes (sections 4.1.2.5 and 4.1.2.6 of RFC 6265),
  and `decodeCookies`.
- **Catalogue and reviews** (`ShopModel`, `Products`, `Reviews`):
  - product creation with schema defaults and enums;
  - pagination;
  - lookup;
  - delete with cascade to reviews;
  - review create/read/update/delete;
  - one review per (product, user);
  - the ceil-of-mean rating aggregate recomputed after each review save and remove.
- **Orders** (`Orders`):
  - cart pricing from stored products;
  - order creation;
  - the cache-aside all-orders read and its invalidation;
  - the single-order, per-user and update handlers.
- **Uploads and mail links** (`Uploads`, `Email`): the image checks, and the
  reset and verification links.
- **Cross-handler flows** (`Flows`):
  - the reset-token window and single use;
  - reuse and rotation of the refresh secret across logins and logout;
  - the leaked verification token;
  - the `('admin', 'owner')` route guard.

**Conventions**

- Collections are sequences in store order, so `findOne` is the first match.
- Every handler that writes returns `Step(state, reply)`. A write that comes
  before a later throw therefore stays visible.
- Thrown errors are `Err(...)` values of one `Error` type. A JavaScript
  TypeError (a property read on `null`/`undefined`) is `TypeFailure`.
- A Mongoose validation or unique-index error is `SchemaViolation`. A refused
  ObjectId cast is `CastFailure`. A failed external call is `External`.
- Clock readings are integer milliseconds and money is integer cents.
- Strings are sequences of Unicode scalar values. Every length bound of Joi
  (`min`) or of a schema (`minlength`, `maxlength`) is compared against
  `Utf16Length`, the JavaScript length in UTF-16 code units.

**Parameters.** The following are uninterpreted function parameters:

- bcrypt hashing and comparison, and the reset-token hash;
- Joi's e-mail and URI syntax, and ObjectId validity;
- `checkPermissions`;
- the image host's upload call.

Random tokens, ids, the payment intent's client secret, the clock, and whether
the mail queue accepted a message are plain parameters.

**Session refresh.** The middleware consults only the signed `token` cookie.
It has no refresh-token path: there is no renewal of an expired access token
from the refresh cookie. The model follows the code here.
`Gate.RefreshPayloadHasNoRole` shows what a refresh token presented as the
`token` cookie actually yields.

## Model

| member | source | states |
|---|---|---|
| `Jwt.TokenLifetime` | utils/jwt.js:3-7 | a token signed with the configured secret verifies to its own payload while at least one second of its lifetime remains, and never once `expiresIn` seconds have passed |
| `Jwt.ForeignTokensRejected` | utils/jwt.js:7 | a token signed with another key, or anything that is not a signed token, never verifies |
| `Jwt.AttachCookiesToResponse` | utils/jwt.js:9-18 | the cookie is named `token`, holds the token, expires one day after issue, is always HttpOnly and signed, and is Secure exactly in production |
| `Jwt.DecodeCookies` | utils/jwt.js:20-25 | the plain cookies are read only when there is no signed-cookie object; a user is set exactly when that jar holds a parseable `token` |
| `Jwt.DecodeAcceptsMoreThanVerify` | utils/jwt.js:20-25 | decodeCookies agrees with verification on every token that verifies, and also accepts expired tokens and tokens signed with another key |
| `Gate.AuthenticateUser` | middleware/authentication.js:5-19 | allows exactly when the signed `token` cookie verifies, with `req.user` equal to its name, id and role; otherwise "no token" exactly when the cookie is absent, empty, or `false` because its cookie signature does not check, and one fixed error for every verification failure |
| `Gate.AuthorizePermissions` | middleware/authentication.js:21-28 | allows exactly when the caller's role is one of the listed roles, passing the user on unchanged; otherwise Unauthorized |
| `Gate.CookieOpensGate` | middleware/authentication.js:5-19 | the cookie built for a fresh access token admits its holder with exactly the signed claims until `exp`, and is refused afterwards |
| `Gate.RefreshPayloadHasNoRole` | middleware/authentication.js:12-15 | a verified refresh token used as the `token` cookie passes the gate with no name, id or role, and then fails every role check |
| `Common.Utf16Length` | models/User.js:45-47 | a length bound of Joi or of the schema measures UTF-16 code units: never fewer than the characters, never more than twice as many |
| `Common.Utf16LengthExact` | models/Product.js:16 | the measured length equals the number of characters exactly when every character lies in the Basic Multilingual Plane |
| `Common.EmojiCountsTwice` | models/User.js:18 | one character outside the Basic Multilingual Plane counts two units toward a `minlength` |
| `Users.LoginAcceptsShortPasswords` | models/User.js:43-79 | a login body may carry a password shorter than 8 characters, which no registration body may |
| `Users.PreSave` | models/User.js:81-88 | the password is re-hashed exactly when it was modified, and no other path changes |
| `Users.PayloadShapes` | models/User.js:90-103 | access and refresh payloads carry the same `{name, id, role}`; only the refresh payload carries the secret, and the two never coincide |
| `Users.AdminCountZero` | controllers/authController.js:23-24 | the admin count is zero exactly when no account has the admin role |
| `Auth.SaveTokenInfo` | controllers/authController.js:146-159 | an existing valid record is returned unchanged; an existing revoked one is an error with nothing written; a new record with the new secret, ip and agent is created only when none exists; one record per account is kept |
| `Auth.Register` | controllers/authController.js:11-39 | a refused body or a used e-mail changes nothing; otherwise one account is appended, admin exactly when no admin exists, with a hashed password and an unverified token; a failed queue push is an error after the account is written, with sessions untouched; with the push queued and no session for the new id the reply succeeds; on success the sessions are exactly what `saveTokenInfo` leaves and the reply carries the public account, its access token and a refresh token with that record's secret; uniqueness invariants kept |
| `Auth.Login` | controllers/authController.js:41-69 | accounts never change and an error changes nothing; a refused body, unknown e-mail (BadRequest) or wrong password (Unauthenticated) is answered before the sessions are read; a revoked session record refuses the login; success leaves exactly the sessions `saveTokenInfo` leaves and replies with the public account, its access token, a refresh token with the record's secret, and the verification notice exactly when the account is unverified |
| `Auth.RemoveKeepsUnique` | controllers/authController.js:72 | deleting one session record keeps one record per account, leaves none for that account, and keeps every other account's record |
| `Auth.Logout` | controllers/authController.js:71-81 | the caller's session record is gone, every other record is kept, accounts are untouched, and both `accessToken` and `refreshToken` cookies are cleared |
| `Auth.ForgotPassword` | controllers/authController.js:83-105 | no e-mail is a BadRequest; an unknown e-mail gets the success reply with no change; for a known one only that account changes, storing the token's hash and an expiry of now + 600000 ms; sessions never change |
| `Auth.ResetAccount` | controllers/authController.js:119-124 | after a reset the password is the new one hashed, the token is cleared to `''` and the expiry to null, and id and e-mail are kept |
| `Auth.ResetPassword` | controllers/authController.js:107-127 | a missing value is a BadRequest; "expired" exactly for a known account whose expiry is strictly before now; an unknown e-mail or a non-matching token gets the success reply with nothing changed; a matching, unexpired token with a password under the schema's 8 characters is a validation error with nothing changed, and with a longer one stores the new password hashed and clears the token and expiry |
| `Auth.VerifyEmail` | controllers/authController.js:129-144 | an unknown e-mail or a token other than the stored one is Unauthenticated with nothing changed; a match sets verified, clears the token and stamps the time |
| `LegacyAuth.Register` | controllers/auth-controller.js:6-27 | a refused body or a used e-mail writes nothing; a valid body with a new e-mail always succeeds, appending one unverified account with the given name and e-mail, admin exactly when none exists, a hashed password and no verification token; the reply carries the public account, its token and the cookie; sessions are never touched |
| `LegacyAuth.Login` | controllers/auth-controller.js:29-50 | unknown e-mail is BadRequest and wrong password Unauthenticated, told apart; success returns the public account, its access token and the cookie |
| `LegacyAuth.LoginCookieOpensGate` | controllers/auth-controller.js:29-50 | the cookie a successful login sets admits its holder at the gate as that account, with its name, id and role, while the token is live |
| `LegacyAuth.Logout` | controllers/auth-controller.js:52-58 | only the `token` cookie is cleared and no state changes |
| `Users.WithRole` | controllers/userController.js:9 | the `find({role})` result holds each stored account of that role exactly as often as the store does, and nothing else |
| `Users.WithRoleSnoc` | controllers/userController.js:9 | the result keeps store order: an account stored last comes out last when it has the role, and changes nothing otherwise |
| `UserAdmin.ListRole` | controllers/userController.js:8-22 | refused with NotFound exactly when no account has the role; otherwise one entry per element of the `find({role})` result, position by position, each that account without its password |
| `UserAdmin.ListRoleSnoc` | controllers/userController.js:8-22 | the listing keeps store order: an account of the role stored last is listed last, and one of another role leaves the listing unchanged |
| `UserAdmin.GetAllUsers` | controllers/userController.js:8-14 | NotFound exactly when there is no `user` account; otherwise every `user` account, and only those, position by position as `find({role: 'user'})` returns them, without passwords |
| `UserAdmin.GetAllAdmins` | controllers/userController.js:16-22 | NotFound exactly when there is no `admin` account; otherwise every `admin` account, and only those, position by position as `find({role: 'admin'})` returns them, without passwords |
| `UserAdmin.GetSingleUser` | controllers/userController.js:24-35 | a malformed id is BadRequest and an absent account NotFound, both before the permission check; a found account is returned exactly when the permission check passes |
| `UserAdmin.SingleUserFindsStored` | controllers/userController.js:24-35 | with unique ids, every stored account with a well-formed id is found by it and returned without its password to a permitted caller |
| `UserAdmin.ShowCurrentUser` | controllers/userController.js:37-44 | Unauthenticated exactly when `req.user` is absent, otherwise that user |
| `UserAdmin.UpdateUser` | controllers/userController.js:46-58 | a refused body is a 400 and a missing caller a TypeError; otherwise the update succeeds exactly when no other account has the new e-mail (else a unique-index error); the store gets the new name and e-mail, while the reply and the new token carry the pre-update document; sessions never change; an error changes nothing |
| `UserAdmin.UpdateUserPassword` | controllers/userController.js:60-81 | a refused body, then a new password equal to the old ignoring case, then a missing account or a wrong old password are refused with nothing changed; success changes only the password, stored hashed |
| `Flows.SessionFound` | controllers/authController.js:147 | with one record per account, the lookup by account finds exactly the record that account holds |
| `Flows.ResetLinkWindow` | controllers/authController.js:83-127 | a reset token mailed at `now`, with a password of at least 8 characters, resets the password up to and including now + 600000 ms, and is refused as expired one millisecond later |
| `Flows.ResetIsSingleUse` | controllers/authController.js:107-127 | after a successful reset (matching token, password of at least 8 characters), every later reset for that e-mail is refused as expired and changes nothing, whatever token it presents |
| `Flows.SecondLoginReusesSecret` | controllers/authController.js:146-159 | a second login, from any client, succeeds with the same refresh secret and writes nothing |
| `Flows.LogoutThenLoginRotatesSecret` | controllers/authController.js:71-159 | after logout the next successful login creates a new session, so its refresh token carries the newly generated secret |
| `Flows.ForgotPasswordRevealsNothing` | controllers/authController.js:89-104 | a known and an unknown e-mail get the same reply |
| `Flows.RegisterReplyVerifies` | controllers/authController.js:26-38 | the registration reply carries the verification token in clear, and presenting it verifies the new account |
| `Flows.AdminOwnerGuard` | routes/userRoutes.js:14-15 | a signed-in account passes the `('admin', 'owner')` guard exactly when it is an admin |
| `ShopModel.RatingsOfAppend` | models/Review.js:34-35 | appending a review adds its rating to its own product's ratings only |
| `ShopModel.RatingsOfUpdate` | models/Review.js:34-35 | replacing a review of another product leaves a product's ratings unchanged |
| `ShopModel.RatingsOfRemove` | models/Review.js:34-35 | removing a review of another product leaves a product's ratings unchanged |
| `ShopModel.RatingsOfCascade` | models/Product.js:70-73 | deleting every review of one product leaves every other product's ratings unchanged |
| `ShopModel.RatingsOfEmpty` | models/Review.js:34-35 | a product has no ratings exactly when no review refers to it |
| `ShopModel.CeilMeanBounds` | models/Review.js:39-45 | the rounded-up mean of ratings within [lo, hi] lies within [lo, hi] |
| `ShopModel.FilterKeepsUniquePairs` | models/Review.js:31 | filtering reviews keeps at most one review per (product, user) |
| `ShopModel.RemoveKeepsUniquePairs` | models/Review.js:31 | removing one review keeps at most one review per (product, user) |
| `ShopModel.TransferConsistency` | models/Review.js:44 | products whose ratings are unchanged keep correct aggregates |
| `Products.CastColor` | models/Product.js:33-36 | a colour value fails to cast exactly when it is an array; a string is kept as is |
| `Products.CastColors` | models/Product.js:33-36 | the colours fail to cast exactly when some element is an array; otherwise each element is cast in place |
| `Products.CreateProduct` | controllers/productController.js:6-16 | a body Joi refuses is a 400 with nothing written; a Joi-valid body succeeds exactly when its category and company are in the enums, its description is at most 1000 characters and no colour is an array, and otherwise is a validation error with nothing written; on success exactly one product is appended, owned by the caller, with each given field (the colours as cast element by element) and the schema default for each left-out one; reviews never change |
| `Products.OwnerIsCaller` | controllers/productController.js:7 | whatever owner the body names, the created product belongs to the caller |
| `Products.ReviewCountNotSettable` | models/Product.js:76-93 | a body naming `numberOfReviews` is refused and nothing is created |
| `Products.EnumStricterThanValidator` | models/Product.js:22-32 | a body Joi accepts, with category `garden`, is refused by the schema's enum |
| `Products.CreateProductKeepsValid` | controllers/productController.js:13 | creating a product with a fresh id keeps unique ids, unique review pairs and correct aggregates |
| `Products.Offset` | controllers/productController.js:24 | the offset is (pageNumber - 1) * pageSize and never negative |
| `Products.GetAllProducts` | controllers/productController.js:18-44 | page defaults 10 and 1; total counts every product; current is the page number; pages is the ceiling of total / pageSize; the data are at most pageSize consecutive products from the offset, a full page while enough remain, exactly the remainder on the last page, and empty exactly past the end |
| `Products.PageSlice` | controllers/productController.js:31 | `skip(offset).limit(size)` yields the products from position `offset` on, in order, at most `size` of them and as many as remain up to that |
| `Products.ProductOnItsPage` | controllers/productController.js:24-40 | product `i` appears as item `i % size` of page `i / size + 1`, and that page is within `pages` |
| `Products.PagesPastTheEndAreEmpty` | controllers/productController.js:31-40 | a page number beyond `pages` gives an empty page |
| `Products.GetSingleProduct` | controllers/productController.js:46-53 | an id the ObjectId cast refuses throws; otherwise BadRequest exactly when no product has the id, else a stored product with that id |
| `Products.DeleteProduct` | controllers/productController.js:61-69 | an id the ObjectId cast refuses throws and a missing id is a BadRequest, both with nothing changed; a stored id always succeeds: the product is removed, every review of it is deleted and every other review is kept |
| `Products.DeleteProductKeepsValid` | models/Product.js:70-73 | deleting a product keeps unique ids, unique review pairs and correct aggregates |
| `Reviews.CalculateAverageRating` | models/Review.js:33-48 | fails exactly when the product has no review left; otherwise the first product with that id gets the ceil of its ratings' mean and their count, and every other product is unchanged |
| `Reviews.RecomputeRestores` | models/Review.js:33-56 | after the recompute for the one product whose reviews changed, every product's aggregates are correct again |
| `Reviews.AverageWithinRange` | models/Review.js:39-45 | when every rating is in [1, 5] the recomputed average is in [1, 5] |
| `Reviews.CreateReview` | controllers/reviewController.js:9-29 | in order: a product id the ObjectId cast refuses, a body Joi refuses, a missing product, and a second review by the caller are each refused with nothing written; past these the create succeeds exactly when the title does not trim to nothing, appending one review by the caller with the body's rating and comment and its trimmed title, and setting the products to the recompute's result for its product |
| `Reviews.CreateReviewKeepsValid` | controllers/reviewController.js:23-27 | a create keeps at most one review per (product, user), and after it every product's aggregate is the rounded-up mean and count of its reviews |
| `Reviews.AuthorIsCaller` | controllers/reviewController.js:11 | whatever author the body names, a created review is the caller's |
| `Reviews.GetSingleReview` | controllers/reviewController.js:51-62 | an id the ObjectId cast refuses throws; otherwise NotFound exactly when no review has the id, else a stored review with that id |
| `Reviews.Merge` | controllers/reviewController.js:71-73 | only rating, title and comment may change; a truthy supplied value replaces the stored one and a falsy or missing one keeps it |
| `Reviews.UpdateReview` | controllers/reviewController.js:64-78 | an id the ObjectId cast refuses throws, a missing review is NotFound, then a refused caller gets the permission error, all with nothing changed; a permitted update succeeds exactly when the merged title is not empty: the merged review replaces the old one in place, with no range check on the rating, and the products are the recompute's result |
| `Reviews.UpdateReviewKeepsValid` | controllers/reviewController.js:64-78 | an update keeps at most one review per (product, user), and after it every product's aggregate is the rounded-up mean and count of its reviews |
| `Reviews.DeleteReview` | controllers/reviewController.js:80-89 | an id the ObjectId cast refuses throws, a missing review is NotFound, then a refused caller gets the permission error, all with nothing changed; otherwise the review is removed; the recompute fails exactly when it was the product's last review, leaving the products as they were, and otherwise the products are its result |
| `Reviews.DeleteReviewKeepsValid` | controllers/reviewController.js:80-89 | a delete keeps unique pairs, and every product with reviews left has the rounded-up mean and count of them, also when the recompute fails |
| `Reviews.LastReviewLeavesStaleCount` | models/Review.js:45-46 | deleting a product's only review leaves the product claiming one review while none remains |
| `Reviews.UniqueReviewOfPair` | models/Review.js:31 | two positions never hold the same review |
| `Orders.PriceCart` | controllers/orderController.js:20-36 | the error of the first cart line that cannot be priced; otherwise one order line per cart line, in cart order, with name, price and image from the stored product and the cart's quantity, and the subtotal as the sum of quantity times price |
| `Orders.CreateOrder` | controllers/orderController.js:10-51 | in order: an empty or missing cart, a falsy tax or shipping fee (0 included), and an unpriceable line are refused with nothing written and the cache untouched; past these the create succeeds exactly when the client secret is non-empty and every priced line has a name and an image, appending one pending order with total = tax + fee + subtotal and dropping the cache |
| `Orders.GetAllOrders` | controllers/orderController.js:69-79 | a cached list is answered without reading the collection; otherwise an empty collection is BadRequest and nothing is cached, and a non-empty one is cached and answered |
| `Orders.CoherentReadIsFresh` | controllers/orderController.js:69-79 | while create and update drop the cache, a read answers exactly what the collection holds and keeps the cache coherent |
| `Orders.UpdateOrder` | controllers/orderController.js:80-93 | a missing order throws before the not-found check; a refused caller gets the permission error; otherwise only status (now paid) and the payment intent id change, and the cache is dropped |
| `Orders.GetSingleOrder` | controllers/orderController.js:52-60 | a missing order throws before the not-found check; otherwise the order, exactly when the permission check passes |
| `Orders.SingleOrderFindsStored` | controllers/orderController.js:52-60 | with unique ids, every stored order is answered for its id to a permitted caller, and any other caller gets the permission error |
| `Orders.GetCurrentUserOrders` | controllers/orderController.js:61-68 | a user id the ObjectId cast refuses throws; otherwise BadRequest exactly when the user has no order, else that user's orders, each exactly as often as stored, and no other |
| `Orders.CurrentUserOrdersSnoc` | controllers/orderController.js:61-68 | the listing keeps store order: an order of the user stored last is listed last, and another user's order leaves the listing unchanged |
| `Orders.StaleWithoutInvalidation` | controllers/orderController.js:48-49 | a cached list left in place after a write hides the new order from the next read |
| `Uploads.UploadProductImage` | utils/uploadsController.js:5-26 | checked in order: no files, no image, no `mimeType`, a non-`image/` type, more than 1 MiB; each is refused with no effect; only an acceptable file is uploaded, and its temporary file is removed only after a successful upload |
| `Uploads.UnlinkFollowsUpload` | utils/uploadsController.js:20-24 | a removal of the temporary file always directly follows its upload, and only in a successful reply |
| `Uploads.SizeBoundInclusive` | utils/uploadsController.js:15-18 | exactly 1048576 bytes is accepted and 1048577 is refused |
| `Uploads.FileUploadObjectsNeverPass` | utils/uploadsController.js:10-13 | a file object that stores its type under `mimetype` always makes the handler throw before any check, so nothing is ever uploaded |
| `Email.Origin` | utils/email/sendEmail.js:4-7 | the production base URL exactly when NODE_ENV is `production`, the development one otherwise |
| `Email.ResetPasswordEmail` | utils/email/sendEmail.js:8-17 | sent to the account's address with subject `Password Reset` and the reset link |
| `Email.VerificationEmail` | utils/email/sendEmail.js:19-28 | sent to the account's address with subject `Email Verification` and the verify link |
| `Email.ResetUrlInjective` | utils/email/sendEmail.js:9 | a reset link determines its token and address when the token holds no `&` |
| `Email.VerifyUrlInjective` | utils/email/sendEmail.js:20 | a verify link determines its token and address when the token holds no `&` |
| `Email.UnescapedLinksCollide` | utils/email/sendEmail.js:9-20 | without URL encoding, two different (token, address) pairs give the same link |

## Left out

- Server plumbing is not modelled: routing, HTTP status codes, JSON envelopes, the GraphQL schema and app start-up. `Flows.AdminOwnerGuard` uses the route guard only as its input.
- Concurrency is not modelled. Every handler runs to completion alone, so the read-then-create race in `saveTokenInfo` does not arise.
- The mail queue, the mailer, Redis and Stripe are not modelled as services.
  - A queue push is a boolean parameter.
  - The cache is an optional list in the order store.
  - The payment intent's client secret is a parameter.
- Refresh-token renewal is not modelled: the gate has no such path.
- Some imports fail at run time, and the model does not follow that failure. It uses the collaborators for what their names say:
  - `createHash` and `pushToQueue` are not exported;
  - the order handler calls the Stripe class without `new`;
  - the mail module imports a missing export.
- Users.PreSave: the hook is declared `async function (req, res, next)`. Mongoose passes the continuation as the first argument, so the parameter named `next` is undefined. The model follows the evident intent (hash when modified, then save) and does not model what may follow:
  - a save that changes the password would reject with a TypeError after hashing, in `Auth.Register`, `LegacyAuth.Register`, `Auth.ResetPassword` and `UserAdmin.UpdateUserPassword`;
  - a save that does not change the password never calls its continuation, and whether it completes depends on the hook runner's version.
- Auth.Register: no cookie is modelled. As written, `attachCookiesToResponse({…})` receives one object and no `res`, so `res.cookie` throws after the account and session writes. The model answers with the tokens in the reply body instead.
- Auth.Login: no cookie is modelled, for the same reason as `Auth.Register`. As written, the call throws after the session write.
- Uploads.UploadProductImage: the handler reads `productImage.mimeType`, but express-fileupload names that field `mimetype`. As installed, every request with a `productImage` therefore takes the TypeError path; `Uploads.FileUploadObjectsNeverPass` states this. The MIME and size checks are modelled for a file object that does carry `mimeType`.
- `updateProduct`, `getAllReviews` and `uploadImage` are not modelled. They are not part of this model.
- `utils/pagination.js` is not part of this model. `populate`, timestamps and the Token model file are not modelled.
- The HTML text of the two mails is not modelled beyond the name and the link.
- Case folding and whitespace trimming cover ASCII only: `Lower` and `Trim`.
- Joi's conversion of numeric strings (a rating of `"5"`) is not modelled. JavaScript's string concatenation in `tax + shippingFee + subtotal` is not modelled either: tax, fee and quantity are numbers.
- Products.CastColors: Mongoose's cast of `colors` is approximated. Scalars and ids become their string form, and only a nested array fails.
- Products.GetAllProducts: requires a given pageSize and pageNumber to be at least 1. Zero, negative and non-numeric route parameters (NaN offsets) are not modelled.
- Reviews.CreateReview: when the body has no `product`, the lookup `findOne({_id: undefined})` is read as matching nothing. The reply is therefore "Product with id undefined not found". Any product value the ObjectId constructor refuses is a `CastFailure`.
- Orders.GetSingleOrder: the handlers filter on `{id: orderId}`, a path the order schema does not declare. The model reads this as a lookup by order id. Two other readings are possible, depending on Mongoose's `strictQuery` setting:
  - with the unknown filter dropped, the first order is returned whatever the id;
  - with the filter kept, no stored order has an `id` field, so nothing matches and both handlers always end in the TypeError.
- Orders.UpdateOrder: the same `{id: orderId}` reading as `Orders.GetSingleOrder` applies.
- Orders.GetAllOrders: `redisGet` hands back the cached value unparsed, so on a cache hit `total` would count characters. The model treats the cached entry as the order list.
- Products.DeleteProduct: `product.remove()` is not awaited. The model applies the removal and its review cascade before the reply.
- Reviews.DeleteReview: the recompute failure after the last review is modelled as written. The removal stays and the error is the reply.

=== FILE: auth.dfy ===
/** controllers/authController.js: registration, login and logout over the
    account collection and the session (`Token`) collection, and the two
    one-time-token flows, e-mail verification and password reset. Hashing,
    signing, token generation and the clock are parameters. */
module Auth {
  import opened Common
  import opened Jwt
  import opened Users

  /** A `Token` document: the refresh record of one account. */
  datatype Session = Session(user: string, refreshToken: string, ip: string,
                             userAgent: string, isValid: bool)

  datatype AuthStore = AuthStore(users: seq<Account>, tokens: seq<Session>)

  /** `req.ip` and the `user-agent` header. */
  datatype Client = Client(ip: string, userAgent: string)

  /** The library collaborators of the auth handlers, left uninterpreted. */
  datatype Crypto = Crypto(
    jwt: Config,
    bcryptHash: string -> string,             // bcrypt.hash with a generated salt
    bcryptCompare: (string, string) -> bool,  // bcrypt.compare(plain, hash)
    createHash: string -> string,             // one-way hash of reset tokens
    isEmail: string -> bool)                  // Joi's e-mail syntax

  datatype Reply =
    | Issued(user: PublicUser, token: Token, refreshToken: Token, message: string, notice: string)
    | Done(msg: string)
    | LoggedOut(clearedCookies: seq<string>)

  const EmailInUse: Error := CustomApi("This email address is already in use")
  const UnknownEmail: Error := BadRequest("Invalid credentials provided")
  const WrongPassword: Error := Unauthenticated("Invalid email or password")
  const RevokedSession: Error := Unauthenticated("Invalid credentials")
  const MissingEmail: Error := BadRequest("Please enter a valid email")
  const MissingValues: Error := BadRequest("Please provide all values")
  const ExpiredLink: Error := BadRequest("Password reset link has expired")
  const NoSuchAccount: Error := Unauthenticated("Verification failed")
  const WrongVerificationToken: Error := Unauthenticated("Verification failed, invalid token")

  const CheckInbox := "Please check your email for a link to verify your account"
  const LoginOk := "Login successful"
  const VerifyNotice := "Please verify your email to get full access to your account capabilities"
  const ResetSent := "Please check your email for reset link"
  const PasswordChanged := "Password changed successfully. Redirecting to login page"
  const EmailVerified := "Email successfully verified"

  /** Ten minutes in milliseconds: the life of a reset token. */
  const ResetWindow: nat := 1000 * 10 * 60

  predicate HasSession(tokens: seq<Session>, userId: string) {
    exists i :: 0 <= i < |tokens| && tokens[i].user == userId
  }

  /** At most one session record per account. */
  predicate UniqueSessions(tokens: seq<Session>) {
    forall i, j :: 0 <= i < j < |tokens| ==> tokens[i].user != tokens[j].user
  }

  /** The invariant every handler keeps: the unique index on e-mail, and one
      session record per account. */
  predicate Valid(st: AuthStore) {
    UniqueEmails(st.users) && UniqueSessions(st.tokens)
  }

  /** `Token.findOne({user})`. */
  function FindSession(tokens: seq<Session>, userId: string): Option<nat> {
    IndexOf(tokens, (s: Session) => s.user == userId)
  }

  /** saveTokenInfo: an existing valid record is handed back untouched (its
      refresh secret is not rotated and the new client is ignored); an
      existing revoked record is refused and nothing is written; only when
      the account has no record is a new one, with the new secret and this
      client's address and agent, created. */
  function SaveTokenInfo(tokens: seq<Session>, userId: string, newSecret: string, client: Client)
    : (r: Result<(seq<Session>, Session)>)
    ensures !HasSession(tokens, userId) ==>
              var s := Session(userId, newSecret, client.ip, client.userAgent, true);
              r == Ok((tokens + [s], s))
    ensures HasSession(tokens, userId) ==>
              var i := FindSession(tokens, userId).value;
              (tokens[i].isValid ==> r == Ok((tokens, tokens[i]))) &&
              (!tokens[i].isValid ==> r == Err(RevokedSession))
    ensures r.Ok? ==> r.value.1 in r.value.0 && r.value.1.user == userId && r.value.1.isValid
    ensures UniqueSessions(tokens) && r.Ok? ==> UniqueSessions(r.value.0)
  {
    match FindSession(tokens, userId)
    case Some(i) =>
      if !tokens[i].isValid then Err(RevokedSession) else Ok((tokens, tokens[i]))
    case None =>
      var s := Session(userId, newSecret, client.ip, client.userAgent, true);
      Ok((tokens + [s], s))
  }

  /** The account `register` creates from a valid body: role `admin` exactly
      when no admin exists yet, the password stored only as its bcrypt hash,
      the verification token stored in clear, not yet verified. */
  ghost predicate Created(users: seq<Account>, users': seq<Account>, c: Crypto, body: Body,
                          verificationToken: string)
    requires ValidateUserSchema(body, c.isEmail)
  {
    && |users'| == |users| + 1
    && users'[..|users|] == users
    && var a := users'[|users|];
       && a.name == body["name"].s
       && a.email == body["email"].s
       && a.password == c.bcryptHash(body["password"].s)
       && (a.role == Admin <==> forall i :: 0 <= i < |users| ==> users[i].role != Admin)
       && a.verificationToken == Some(verificationToken)
       && !a.isVerified
  }

  /** register: a body Joi refuses or an e-mail already in use changes
      nothing; otherwise the account is created, and the reply succeeds
      exactly when the verification mail could be queued and the account's
      session record could be obtained. */
  function Register(st: AuthStore, c: Crypto, body: Body, client: Client, now: nat,
                    newId: string, verificationToken: string, newSecret: string, queued: bool)
    : (r: Step<AuthStore, Reply>)
    ensures !ValidateUserSchema(body, c.isEmail) ==> r == Step(st, Err(Invalid))
    ensures ValidateUserSchema(body, c.isEmail) && FindByEmail(st.users, body["email"].s).Some? ==>
              r == Step(st, Err(EmailInUse))
    ensures ValidateUserSchema(body, c.isEmail) && FindByEmail(st.users, body["email"].s).None? ==>
              Created(st.users, r.state.users, c, body, verificationToken)
    ensures r.reply.Ok? ==>
              && r.reply.value.Issued?
              && |r.state.users| == |st.users| + 1
              && var a := r.state.users[|st.users|];
                 && r.reply.value.user == Public(a)
                 && r.reply.value.token == CreateJWT(c.jwt, AccessPayload(a), now)
                 && HasSession(r.state.tokens, a.id)
    ensures ValidateUserSchema(body, c.isEmail) && FindByEmail(st.users, body["email"].s).None? ==>
              && (!queued ==> r.reply == Err(External))
              && (queued && !HasSession(st.tokens, newId) ==> r.reply.Ok?)
              && (r.reply.Ok? ==>
                    && SaveTokenInfo(st.tokens, newId, newSecret, client).Ok?
                    && var saved := SaveTokenInfo(st.tokens, newId, newSecret, client).value;
                       && r.state.tokens == saved.0
                       && r.reply.value.refreshToken
                          == CreateJWT(c.jwt, RefreshPayload(r.state.users[|st.users|], saved.1.refreshToken), now))
    ensures r.reply.Err? ==> r.state.tokens == st.tokens
    ensures Valid(st) ==> Valid(r.state)
  {
    if !ValidateUserSchema(body, c.isEmail) then Step(st, Err(Invalid))
    else
      var email := body["email"].s;
      if FindByEmail(st.users, email).Some? then Step(st, Err(EmailInUse))
      else
        AdminCountZero(st.users);
        var role := if AdminCount(st.users) == 0 then Admin else User;
        var created := NewAccount(newId, body["name"].s, email, body["password"].s, role, Some(verificationToken));
        var a := PreSave(created, true, c.bcryptHash);
        var users' := st.users + [a];
        assert users'[..|st.users|] == st.users;
        var access := CreateJWT(c.jwt, AccessPayload(a), now);
        if !queued then Step(AuthStore(users', st.tokens), Err(External))
        else match SaveTokenInfo(st.tokens, a.id, newSecret, client)
          case Err(e) => Step(AuthStore(users', st.tokens), Err(e))
          case Ok(saved) =>
            var refresh := CreateJWT(c.jwt, RefreshPayload(a, saved.1.refreshToken), now);
            Step(AuthStore(users', saved.0), Ok(Issued(Public(a), access, refresh, CheckInbox, "")))
  }

  /** login: a body Joi refuses, an unknown e-mail (BadRequest) or a wrong
      password (Unauthenticated) is answered before the session collection is
      read, so none of them touches it. On success the account's one session
      record supplies the refresh secret, and the reply carries the
      verification notice exactly when the account is unverified. */
  function Login(st: AuthStore, c: Crypto, body: Body, client: Client, now: nat, newSecret: string)
    : (r: Step<AuthStore, Reply>)
    ensures r.state.users == st.users
    ensures !ValidateLogin(body, c.isEmail) ==> r == Step(st, Err(Invalid))
    ensures ValidateLogin(body, c.isEmail) && FindByEmail(st.users, body["email"].s).None? ==>
              r == Step(st, Err(UnknownEmail))
    ensures ValidateLogin(body, c.isEmail) && FindByEmail(st.users, body["email"].s).Some? ==>
              var a := st.users[FindByEmail(st.users, body["email"].s).value];
              && (!c.bcryptCompare(body["password"].s, a.password) ==> r == Step(st, Err(WrongPassword)))
              && (r.reply.Ok? ==>
                    && c.bcryptCompare(body["password"].s, a.password)
                    && r.reply.value.Issued?
                    && HasSession(r.state.tokens, a.id)
                    && r.reply.value.user == Public(a)
                    && r.reply.value.token == CreateJWT(c.jwt, AccessPayload(a), now)
                    && (r.reply.value.notice == VerifyNotice <==> !a.isVerified)
                    && SaveTokenInfo(st.tokens, a.id, newSecret, client).Ok?
                    && var saved := SaveTokenInfo(st.tokens, a.id, newSecret, client).value;
                       && r.state.tokens == saved.0
                       && r.reply.value.refreshToken == CreateJWT(c.jwt, RefreshPayload(a, saved.1.refreshToken), now))
              && (c.bcryptCompare(body["password"].s, a.password) && HasSession(st.tokens, a.id)
                  && !st.tokens[FindSession(st.tokens, a.id).value].isValid ==>
                    r == Step(st, Err(RevokedSession)))
    ensures r.reply.Ok? ==> r.reply.value.Issued?
    ensures r.reply.Err? ==> r.state == st
    ensures Valid(st) ==> Valid(r.state)
  {
    if !ValidateLogin(body, c.isEmail) then Step(st, Err(Invalid))
    else match FindByEmail(st.users, body["email"].s)
      case None => Step(st, Err(UnknownEmail))
      case Some(i) =>
        var a := st.users[i];
        if !c.bcryptCompare(body["password"].s, a.password) then Step(st, Err(WrongPassword))
        else
          var notice := if !a.isVerified then VerifyNotice else "";
          var access := CreateJWT(c.jwt, AccessPayload(a), now);
          match SaveTokenInfo(st.tokens, a.id, newSecret, client)
          case Err(e) => Step(st, Err(e))
          case Ok(saved) =>
            var refresh := CreateJWT(c.jwt, RefreshPayload(a, saved.1.refreshToken), now);
            Step(AuthStore(st.users, saved.0), Ok(Issued(Public(a), access, refresh, LoginOk, notice)))
  }

  lemma {:induction false} RemoveKeepsUnique(tokens: seq<Session>, i: nat)
    requires i < |tokens| && UniqueSessions(tokens)
    ensures UniqueSessions(RemoveAt(tokens, i))
    ensures !HasSession(RemoveAt(tokens, i), tokens[i].user)
    ensures forall s :: s in tokens && s.user != tokens[i].user ==> s in RemoveAt(tokens, i)
  {
    var r := RemoveAt(tokens, i);
    forall a, b | 0 <= a < b < |r|
      ensures r[a].user != r[b].user
    {
      var a' := if a < i then a else a + 1;
      var b' := if b < i then b else b + 1;
      assert r[a] == tokens[a'] && r[b] == tokens[b'];
    }
    forall k | 0 <= k < |r|
      ensures r[k].user != tokens[i].user
    {
      var k' := if k < i then k else k + 1;
      assert r[k] == tokens[k'];
    }
    forall s | s in tokens && s.user != tokens[i].user
      ensures s in r
    {
      var k :| 0 <= k < |tokens| && tokens[k] == s;
      if k < i { assert r[k] == s; } else { assert k != i; assert r[k - 1] == s; }
    }
  }

  /** logout: the caller's session record is deleted, every other record is
      kept, accounts are untouched, and both credential cookies are cleared. */
  function Logout(st: AuthStore, userId: string): (r: Step<AuthStore, Reply>)
    ensures r.reply == Ok(LoggedOut(["accessToken", "refreshToken"]))
    ensures r.state.users == st.users
    ensures UniqueSessions(st.tokens) ==> !HasSession(r.state.tokens, userId)
    ensures UniqueSessions(st.tokens) ==>
              forall s :: s in st.tokens && s.user != userId ==> s in r.state.tokens
    ensures Valid(st) ==> Valid(r.state)
  {
    var cleared := ["accessToken", "refreshToken"];
    match FindSession(st.tokens, userId)
    case None => Step(st, Ok(LoggedOut(cleared)))
    case Some(i) =>
      if UniqueSessions(st.tokens) then RemoveKeepsUnique(st.tokens, i); Step(st.(tokens := RemoveAt(st.tokens, i)), Ok(LoggedOut(cleared)))
      else Step(st.(tokens := RemoveAt(st.tokens, i)), Ok(LoggedOut(cleared)))
  }

  /** Replacing an account by one with the same e-mail keeps the index. */
  lemma SameEmailKeepsUnique(users: seq<Account>, i: nat, a: Account)
    requires i < |users| && a.email == users[i].email && UniqueEmails(users)
    ensures UniqueEmails(users[i := a])
  {
  }

  /** forgotPassword: no e-mail is a BadRequest; otherwise the answer is the
      same whether or not an account has that e-mail. For a known account
      the stored token is the hash of the mailed one, never the token itself,
      and it expires ten minutes after `now`; nothing else changes. */
  function ForgotPassword(st: AuthStore, c: Crypto, email: Option<string>, token: string,
                          now: nat, queued: bool): (r: Step<AuthStore, Reply>)
    ensures !TruthyStr(email) ==> r == Step(st, Err(MissingEmail))
    ensures TruthyStr(email) && FindByEmail(st.users, email.value).None? ==>
              r == Step(st, Ok(Done(ResetSent)))
    ensures r.reply.Ok? ==> r.reply.value == Done(ResetSent)
    ensures r.state.tokens == st.tokens
    ensures r.state.users != st.users ==>
              && TruthyStr(email) && queued
              && FindByEmail(st.users, email.value).Some?
              && var i := FindByEmail(st.users, email.value).value;
                 r.state.users == st.users[i := st.users[i].(
                   passwordToken := Some(c.createHash(token)),
                   passwordTokenExpirationDate := At(now + 600000))]
    ensures TruthyStr(email) && FindByEmail(st.users, email.value).Some? ==>
              (r.reply.Ok? <==> queued)
    ensures Valid(st) ==> Valid(r.state)
  {
    if !TruthyStr(email) then Step(st, Err(MissingEmail))
    else match FindByEmail(st.users, email.value)
      case None => Step(st, Ok(Done(ResetSent)))
      case Some(i) =>
        if !queued then Step(st, Err(External))
        else
          var a := st.users[i].(passwordToken := Some(c.createHash(token)),
                                passwordTokenExpirationDate := At(now + ResetWindow));
          var saved := PreSave(a, false, c.bcryptHash);
          if Valid(st) then
            SameEmailKeepsUnique(st.users, i, saved);
            Step(st.(users := st.users[i := saved]), Ok(Done(ResetSent)))
          else Step(st.(users := st.users[i := saved]), Ok(Done(ResetSent)))
  }

  /** `passwordTokenExpirationDate < new Date()`: an unset date compares as
      NaN (never expired), a cleared one as 0 (expired at any positive time),
      an instant strictly: a token redeemed at its expiry instant is live. */
  predicate Expired(e: Expiry, now: nat) {
    match e
    case Unset => false
    case Null => 0 < now
    case At(t) => t < now
  }

  /** The account after a successful reset. */
  function ResetAccount(a: Account, c: Crypto, password: string): (r: Account)
    ensures r.email == a.email && r.id == a.id
    ensures r.password == c.bcryptHash(password)
    ensures r.passwordToken == Some("") && r.passwordTokenExpirationDate == Null
  {
    PreSave(a.(passwordTokenExpirationDate := Null, passwordToken := Some(""), password := password),
            true, c.bcryptHash)
  }

  /** resetPassword: all three values are required. For a known account whose
      token has expired the reply is the expiry error and nothing changes.
      When the hash of the presented token is the stored one, the save
      validates the new plain password against the schema's minimum length:
      a shorter one is refused with nothing changed, otherwise the new
      password is stored hashed and the token and its expiry are cleared.
      Every other case gets the same success message with nothing changed. */
  function ResetPassword(st: AuthStore, c: Crypto, email: Option<string>, token: Option<string>,
                         password: Option<string>, now: nat): (r: Step<AuthStore, Reply>)
    ensures !(TruthyStr(email) && TruthyStr(token) && TruthyStr(password)) ==>
              r == Step(st, Err(MissingValues))
    ensures r.reply == Err(ExpiredLink) <==>
              && TruthyStr(email) && TruthyStr(token) && TruthyStr(password)
              && FindByEmail(st.users, email.value).Some?
              && Expired(st.users[FindByEmail(st.users, email.value).value].passwordTokenExpirationDate, now)
    ensures r.reply.Ok? ==> r.reply.value == Done(PasswordChanged)
    ensures TruthyStr(email) && TruthyStr(token) && TruthyStr(password) &&
            FindByEmail(st.users, email.value).None? ==>
              r == Step(st, Ok(Done(PasswordChanged)))
    ensures TruthyStr(email) && TruthyStr(token) && TruthyStr(password) &&
            FindByEmail(st.users, email.value).Some? ==>
              var i := FindByEmail(st.users, email.value).value;
              var matches := st.users[i].passwordToken == Some(c.createHash(token.value));
              !Expired(st.users[i].passwordTokenExpirationDate, now) ==>
                && (!matches ==> r == Step(st, Ok(Done(PasswordChanged))))
                && (matches && Utf16Length(password.value) < MinPasswordLength ==> r == Step(st, Err(SchemaViolation)))
                && (matches && Utf16Length(password.value) >= MinPasswordLength ==>
                      r == Step(st.(users := st.users[i := ResetAccount(st.users[i], c, password.value)]),
                                Ok(Done(PasswordChanged))))
    ensures r.reply.Err? ==> r.state == st
    ensures r.state.tokens == st.tokens
    ensures r.state.users != st.users ==>
              && TruthyStr(email) && TruthyStr(token) && TruthyStr(password)
              && FindByEmail(st.users, email.value).Some?
              && var i := FindByEmail(st.users, email.value).value;
                 && st.users[i].passwordToken == Some(c.createHash(token.value))
                 && !Expired(st.users[i].passwordTokenExpirationDate, now)
                 && Utf16Length(password.value) >= MinPasswordLength
                 && r.state.users == st.users[i := ResetAccount(st.users[i], c, password.value)]
    ensures Valid(st) ==> Valid(r.state)
  {
    if !TruthyStr(email) || !TruthyStr(token) || !TruthyStr(password) then Step(st, Err(MissingValues))
    else match FindByEmail(st.users, email.value)
      case None => Step(st, Ok(Done(PasswordChanged)))
      case Some(i) =>
        var a := st.users[i];
        if Expired(a.passwordTokenExpirationDate, now) then Step(st, Err(ExpiredLink))
        else if a.passwordToken == Some(c.createHash(token.value)) then
          if Utf16Length(password.value) < MinPasswordLength then Step(st, Err(SchemaViolation))
          else
            var a' := ResetAccount(a, c, password.value);
            if Valid(st) then
              SameEmailKeepsUnique(st.users, i, a');
              Step(st.(users := st.users[i := a']), Ok(Done(PasswordChanged)))
            else Step(st.(users := st.users[i := a']), Ok(Done(PasswordChanged)))
        else Step(st, Ok(Done(PasswordChanged)))
  }

  /** verifyEmail: an unknown e-mail and a token that is not the stored one
      are both refused as Unauthenticated with nothing changed; a match marks
      the account verified at `now` and clears the stored token. */
  function VerifyEmail(st: AuthStore, c: Crypto, email: string, token: Option<string>, now: int)
    : (r: Step<AuthStore, Reply>)
    ensures FindByEmail(st.users, email).None? ==> r == Step(st, Err(NoSuchAccount))
    ensures FindByEmail(st.users, email).Some? ==>
              var i := FindByEmail(st.users, email).value;
              && (st.users[i].verificationToken != token ==> r == Step(st, Err(WrongVerificationToken)))
              && (st.users[i].verificationToken == token ==>
                    r == Step(st.(users := st.users[i := st.users[i].(
                            isVerified := true, verificationToken := Some(""), verified := Some(now))]),
                          Ok(Done(EmailVerified))))
    ensures Valid(st) ==> Valid(r.state)
  {
    match FindByEmail(st.users, email)
    case None => Step(st, Err(NoSuchAccount))
    case Some(i) =>
      if st.users[i].verificationToken != token then Step(st, Err(WrongVerificationToken))
      else
        var a := st.users[i].(isVerified := true, verificationToken := Some(""), verified := Some(now));
        var saved := PreSave(a, false, c.bcryptHash);
        if Valid(st) then
          SameEmailKeepsUnique(st.users, i, saved);
          Step(st.(users := st.users[i := saved]), Ok(Done(EmailVerified)))
        else Step(st.(users := st.users[i := saved]), Ok(Done(EmailVerified)))
  }
}

=== FILE: common.dfy ===
/** Shared vocabulary of the shop API model: optional values, the error
    taxonomy the handlers end with, the state-plus-reply shape of every
    handler, request bodies as JSON maps, and the search and string helpers
    the controllers rely on. */
module Common {

  datatype Option<T> = None | Some(value: T)

  /** How a handler can end other than successfully. `Invalid` is the 400
      reply a handler sends itself when a Joi schema rejects the body; the
      other constructors are the exceptions the handlers throw or provoke. */
  datatype Error =
    | Invalid                       // Joi rejected the body; answered with status 400
    | BadRequest(msg: string)       // BadRequestError
    | Unauthenticated(msg: string)  // UnauthenticatedError
    | Unauthorized(msg: string)     // UnauthorizedError
    | NotFound(msg: string)         // NotFoundError
    | CustomApi(msg: string)        // CustomAPIError
    | SchemaViolation               // a Mongoose validator or unique index refuses a write
    | CastFailure                   // a value cannot be cast to an ObjectId or a String
    | TypeFailure                   // a property is read from null or undefined
    | External                      // a queue or upload collaborator fails

  datatype Result<T> = Ok(value: T) | Err(error: Error)

  /** What a handler leaves behind: the store after every write it made, and
      what it answered. Writes made before a later throw stay in `state`. */
  datatype Step<S, T> = Step(state: S, reply: Result<T>)

  /** A JSON value as it arrives in a request body. `JId` is a value that is
      already an ObjectId (the controllers put those into bodies themselves). */
  datatype Json =
    | JStr(s: string)
    | JNum(n: int)
    | JBool(b: bool)
    | JArr(items: seq<Json>)
    | JId(id: string)

  type Body = map<string, Json>

  /** JavaScript truthiness of an optional number: undefined and 0 are falsy. */
  predicate TruthyNum(x: Option<int>) {
    x.Some? && x.value != 0
  }

  /** JavaScript truthiness of an optional string: undefined and '' are falsy. */
  predicate TruthyStr(x: Option<string>) {
    x.Some? && x.value != ""
  }

  /** Index of the first element satisfying `p`, as a document store's
      `findOne` returns the first match in natural order. */
  function IndexOf<T>(s: seq<T>, p: T -> bool): (r: Option<nat>)
    ensures r.Some? ==> r.value < |s| && p(s[r.value])
    ensures r.Some? ==> forall j :: 0 <= j < r.value ==> !p(s[j])
    ensures r.None? <==> forall j :: 0 <= j < |s| ==> !p(s[j])
  {
    if |s| == 0 then None
    else if p(s[0]) then Some(0)
    else match IndexOf(s[1..], p)
      case None => None
      case Some(k) => Some(k + 1)
  }

  /** Positions of the characters outside the Basic Multilingual Plane. */
  function Astral(s: string): set<int> {
    set i | 0 <= i < |s| && s[i] as int > 0xFFFF
  }

  /** A set of positions below `n` has at most `n` elements. */
  lemma {:induction false} BoundedCount(a: set<int>, n: nat)
    requires forall i :: i in a ==> 0 <= i < n
    ensures |a| <= n
  {
    if n == 0 {
      assert forall i :: i !in a;
      assert a == {};
    } else {
      var rest := a - {n - 1};
      BoundedCount(rest, n - 1);
      if n - 1 in a {
        assert a == rest + {n - 1};
      } else {
        assert a == rest;
      }
    }
  }

  /** The length JavaScript reports for a string, which Joi's `min` and
      Mongoose's `minlength`/`maxlength` compare: UTF-16 code units, so a
      character outside the Basic Multilingual Plane counts twice. */
  function Utf16Length(s: string): (n: nat)
    ensures |s| <= n <= 2 * |s|
  {
    BoundedCount(Astral(s), |s|);
    |s| + |Astral(s)|
  }

  /** JavaScript's length agrees with the character count exactly when every
      character lies in the Basic Multilingual Plane. */
  lemma Utf16LengthExact(s: string)
    ensures Utf16Length(s) == |s| <==> forall i :: 0 <= i < |s| ==> s[i] as int <= 0xFFFF
  {
    if Utf16Length(s) == |s| {
      assert Astral(s) == {};
      forall i | 0 <= i < |s| ensures s[i] as int <= 0xFFFF {
        assert i !in Astral(s);
      }
    } else {
      var i :| i in Astral(s);
    }
  }

  /** One emoji is two code units. */
  lemma EmojiCountsTwice()
    ensures Utf16Length("\U{1F600}") == 2
  {
    assert 0 in Astral("\U{1F600}");
    assert Astral("\U{1F600}") == {0};
  }

  /** The elements satisfying `p`, in their original order (a `find` query):
      each one exactly as often as in `s`, and nothing else. */
  function Filter<T(!new)>(s: seq<T>, p: T -> bool): (r: seq<T>)
    ensures |r| <= |s|
    ensures forall i :: 0 <= i < |r| ==> r[i] in s && p(r[i])
    ensures forall i :: 0 <= i < |s| && p(s[i]) ==> s[i] in r
  {
    if |s| == 0 then []
    else if p(s[0]) then [s[0]] + Filter(s[1..], p)
    else Filter(s[1..], p)
  }

  /** Each element kept by `Filter` occurs exactly as often as in `s`. */
  lemma {:induction false} FilterCount<T(!new)>(s: seq<T>, p: T -> bool)
    ensures forall x :: multiset(Filter(s, p))[x] == if p(x) then multiset(s)[x] else 0
  {
    if |s| > 0 {
      assert s == [s[0]] + s[1..];
      FilterCount(s[1..], p);
    }
  }

  /** Filtering keeps store order: an element added at the end of `s` comes
      out at the end of the result, if it is kept at all. */
  lemma {:induction false} FilterSnoc<T(!new)>(s: seq<T>, x: T, p: T -> bool)
    ensures Filter(s + [x], p) == Filter(s, p) + (if p(x) then [x] else [])
  {
    if |s| == 0 {
      assert s + [x] == [x];
    } else {
      assert (s + [x])[1..] == s[1..] + [x];
      FilterSnoc(s[1..], x, p);
    }
  }

  /** `s` without its element at `i` (a document removed from a collection). */
  function RemoveAt<T>(s: seq<T>, i: nat): (r: seq<T>)
    requires i < |s|
    ensures |r| == |s| - 1
    ensures forall j :: 0 <= j < i ==> r[j] == s[j]
    ensures forall j :: i <= j < |r| ==> r[j] == s[j + 1]
  {
    s[..i] + s[i + 1..]
  }

  /** String.prototype.toLowerCase on one character; only the ASCII letters
      are mapped (see the README for what this leaves out). */
  function LowerChar(c: char): char {
    if 'A' <= c <= 'Z' then (c as int + 32) as char else c
  }

  function Lower(s: string): (r: string)
    ensures |r| == |s|
    ensures forall i :: 0 <= i < |s| ==> r[i] == LowerChar(s[i])
  {
    if |s| == 0 then [] else [LowerChar(s[0])] + Lower(s[1..])
  }

  /** Characters String.prototype.trim removes (the ASCII ones, no-break
      space, the line and paragraph separators and the byte-order mark). */
  predicate IsSpace(c: char) {
    c == ' ' || c == '\t' || c == '\n' || c == '\r' || c == '\U{000B}' || c == '\U{000C}'
    || c == '\U{00A0}' || c == '\U{2028}' || c == '\U{2029}' || c == '\U{FEFF}'
  }

  /** Number of leading white-space characters. */
  function Leading(s: string): (k: nat)
    ensures k <= |s|
    ensures forall i :: 0 <= i < k ==> IsSpace(s[i])
    ensures k < |s| ==> !IsSpace(s[k])
  {
    if |s| == 0 || !IsSpace(s[0]) then 0 else 1 + Leading(s[1..])
  }

  /** Number of trailing white-space characters. */
  function Trailing(s: string): (k: nat)
    ensures k <= |s|
    ensures forall i :: |s| - k <= i < |s| ==> IsSpace(s[i])
    ensures k < |s| ==> !IsSpace(s[|s| - k - 1])
  {
    if |s| == 0 || !IsSpace(s[|s| - 1]) then 0 else 1 + Trailing(s[..|s| - 1])
  }

  /** String.prototype.trim, which a Mongoose `trim: true` path applies. */
  function Trim(s: string): (r: string)
    ensures |r| <= |s|
    ensures r != [] ==> !IsSpace(r[0]) && !IsSpace(r[|r| - 1])
    ensures (forall i :: 0 <= i < |s| ==> !IsSpace(s[i])) ==> r == s
  {
    var rest := s[Leading(s)..];
    rest[..|rest| - Trailing(rest)]
  }

  function Digit(d: nat): char
    requires d < 10
  {
    "0123456789"[d]
  }

  function NatToString(n: nat): string
  {
    if n < 10 then [Digit(n)] else NatToString(n / 10) + [Digit(n % 10)]
  }

  /** String(n) for an integer. */
  function IntToString(n: int): string
  {
    if n < 0 then "-" + NatToString(-n) else NatToString(n)
  }

  /** Math.ceil(a / b) for a positive divisor (Dafny's `/` floors here). */
  function CeilDiv(a: int, b: int): (q: int)
    requires b > 0
    ensures (q - 1) * b < a <= q * b
  {
    -((-a) / b)
  }
}

=== FILE: email.dfy ===
/** utils/email/sendEmail.js: the link origin, the reset and verification
    links, and the two messages. Token and address are pasted into the link
    as they are, without URL encoding. */
module Email {

  /** BASE_URL_PROD when NODE_ENV is `production`, BASE_URL_DEV otherwise. */
  function Origin(nodeEnv: string, devUrl: string, prodUrl: string): (o: string)
    ensures nodeEnv == "production" ==> o == prodUrl
    ensures nodeEnv != "production" ==> o == devUrl
  {
    if nodeEnv == "production" then prodUrl else devUrl
  }

  const ResetPath := "/user/reset-password?token="
  const VerifyPath := "/user/verify-email?token="
  const EmailParam := "&email="

  function ResetUrl(origin: string, token: string, email: string): string {
    origin + ResetPath + token + EmailParam + email
  }

  function VerifyUrl(origin: string, token: string, email: string): string {
    origin + VerifyPath + token + EmailParam + email
  }

  /** A message: recipient, subject, the greeting's name and the link. */
  datatype Mail = Mail(to: string, subject: string, name: string, link: string)

  /** sendResetPasswordEmail: to the account's address, with the reset link. */
  function ResetPasswordEmail(origin: string, name: string, email: string, passwordToken: string): (m: Mail)
    ensures m.to == email && m.subject == "Password Reset" && m.name == name
    ensures m.link == ResetUrl(origin, passwordToken, email)
  {
    Mail(email, "Password Reset", name, ResetUrl(origin, passwordToken, email))
  }

  /** sendVerificationEmail: to the account's address, with the verify link. */
  function VerificationEmail(origin: string, name: string, email: string, verificationToken: string): (m: Mail)
    ensures m.to == email && m.subject == "Email Verification" && m.name == name
    ensures m.link == VerifyUrl(origin, verificationToken, email)
  {
    Mail(email, "Email Verification", name, VerifyUrl(origin, verificationToken, email))
  }

  /** Position of the first `c` in `s`, or `|s|` when there is none. */
  function FirstIndexOf(s: string, c: char): nat {
    if |s| == 0 || s[0] == c then 0 else 1 + FirstIndexOf(s[1..], c)
  }

  /** In `a + t` where `t` starts with `c` and `a` holds no `c`, the first
      `c` is where `t` begins. */
  lemma {:induction false} FirstIndexAtJoin(a: string, t: string, c: char)
    requires |t| > 0 && t[0] == c
    requires forall i :: 0 <= i < |a| ==> a[i] != c
    ensures FirstIndexOf(a + t, c) == |a|
  {
    if |a| > 0 {
      assert (a + t)[0] == a[0];
      assert (a + t)[1..] == a[1..] + t;
      FirstIndexAtJoin(a[1..], t, c);
    } else {
      assert a + t == t;
    }
  }

  /** Two texts joined by a separator split back uniquely when the separator's
      first character does not occur in the left part. */
  lemma SplitUnique(a1: string, b1: string, a2: string, b2: string, sep: string)
    requires |sep| > 0
    requires forall i :: 0 <= i < |a1| ==> a1[i] != sep[0]
    requires forall i :: 0 <= i < |a2| ==> a2[i] != sep[0]
    requires a1 + sep + b1 == a2 + sep + b2
    ensures a1 == a2 && b1 == b2
  {
    var s := a1 + sep + b1;
    assert s == a1 + (sep + b1) && s == a2 + (sep + b2);
    FirstIndexAtJoin(a1, sep + b1, sep[0]);
    FirstIndexAtJoin(a2, sep + b2, sep[0]);
    assert a1 == s[..|a1|] && a2 == (a2 + sep + b2)[..|a2|];
    assert b1 == s[|a1| + |sep|..] && b2 == (a2 + sep + b2)[|a2| + |sep|..];
  }

  lemma StripPrefix(p: string, x: string, y: string)
    requires p + x == p + y
    ensures x == y
  {
    assert x == (p + x)[|p|..];
    assert y == (p + y)[|p|..];
  }

  /** A reset link determines its token and address, as long as the token
      holds no `&` (a hex token never does). */
  lemma ResetUrlInjective(origin: string, t1: string, e1: string, t2: string, e2: string)
    requires forall i :: 0 <= i < |t1| ==> t1[i] != '&'
    requires forall i :: 0 <= i < |t2| ==> t2[i] != '&'
    requires ResetUrl(origin, t1, e1) == ResetUrl(origin, t2, e2)
    ensures t1 == t2 && e1 == e2
  {
    var p := origin + ResetPath;
    assert ResetUrl(origin, t1, e1) == p + (t1 + EmailParam + e1);
    assert ResetUrl(origin, t2, e2) == p + (t2 + EmailParam + e2);
    StripPrefix(p, t1 + EmailParam + e1, t2 + EmailParam + e2);
    SplitUnique(t1, e1, t2, e2, EmailParam);
  }

  /** The same holds for verification links. */
  lemma VerifyUrlInjective(origin: string, t1: string, e1: string, t2: string, e2: string)
    requires forall i :: 0 <= i < |t1| ==> t1[i] != '&'
    requires forall i :: 0 <= i < |t2| ==> t2[i] != '&'
    requires VerifyUrl(origin, t1, e1) == VerifyUrl(origin, t2, e2)
    ensures t1 == t2 && e1 == e2
  {
    var p := origin + VerifyPath;
    assert VerifyUrl(origin, t1, e1) == p + (t1 + EmailParam + e1);
    assert VerifyUrl(origin, t2, e2) == p + (t2 + EmailParam + e2);
    StripPrefix(p, t1 + EmailParam + e1, t2 + EmailParam + e2);
    SplitUnique(t1, e1, t2, e2, EmailParam);
  }

  /** Without encoding, a token carrying `&email=` makes two different
      (token, address) pairs produce the same link. */
  lemma UnescapedLinksCollide(origin: string)
    ensures ResetUrl(origin, "a&email=b", "c") == ResetUrl(origin, "a", "b&email=c")
    ensures VerifyUrl(origin, "a&email=b", "c") == VerifyUrl(origin, "a", "b&email=c")
  {
  }
}

=== FILE: flows.dfy ===
/** Properties that span several auth handlers: the life of a password-reset
    token from `forgotPassword` to `resetPassword`, and what consecutive
    logins and a logout do to an account's refresh secret. */
module Flows {
  import opened Common
  import opened Jwt
  import opened Users
  import opened Auth
  import Gate

  /** Rewriting the account an e-mail lookup found, keeping its e-mail,
      leaves the lookup pointing at the same account. */
  lemma FindAfterUpdate(users: seq<Account>, i: nat, a: Account, email: string)
    requires FindByEmail(users, email) == Some(i)
    requires a.email == users[i].email
    ensures FindByEmail(users[i := a], email) == Some(i)
  {
    assert users[i := a][i].email == email;
    assert forall j :: 0 <= j < i ==> users[i := a][j] == users[j];
  }

  /** A session record held in a store with one record per account is the
      one `Token.findOne({user})` finds for its account. */
  lemma SessionFound(tokens: seq<Session>, s: Session)
    requires UniqueSessions(tokens) && s in tokens
    ensures FindSession(tokens, s.user).Some?
    ensures tokens[FindSession(tokens, s.user).value] == s
  {
    var m :| 0 <= m < |tokens| && tokens[m] == s;
    assert tokens[m].user == s.user;
    assert forall j :: 0 <= j < |tokens| && j != m ==> tokens[j].user != s.user;
  }

  /** A reset link mailed at `now` can be redeemed with the mailed token and
      a password the schema accepts up to and including `now` + ten minutes,
      and is refused as expired one millisecond later. */
  lemma ResetLinkWindow(st: AuthStore, c: Crypto, email: string, token: string, password: string,
                        now: nat, t: nat)
    requires email != "" && token != "" && Utf16Length(password) >= MinPasswordLength
    requires FindByEmail(st.users, email).Some?
    ensures var st1 := ForgotPassword(st, c, Some(email), token, now, true).state;
            var i := FindByEmail(st.users, email).value;
            var r := ResetPassword(st1, c, Some(email), Some(token), Some(password), t);
            && (t <= now + ResetWindow ==>
                  r == Step(st1.(users := st1.users[i := ResetAccount(st1.users[i], c, password)]),
                            Ok(Done(PasswordChanged))))
            && (now + ResetWindow < t ==> r == Step(st1, Err(ExpiredLink)))
  {
    var i := FindByEmail(st.users, email).value;
    var st1 := ForgotPassword(st, c, Some(email), token, now, true).state;
    var a := st.users[i].(passwordToken := Some(c.createHash(token)),
                          passwordTokenExpirationDate := At(now + ResetWindow));
    assert st1.users == st.users[i := a];
    FindAfterUpdate(st.users, i, a, email);
    assert st1.users[i].passwordToken == Some(c.createHash(token));
    assert Expired(st1.users[i].passwordTokenExpirationDate, t) <==> now + ResetWindow < t;
  }

  /** A reset link works once: after a successful reset the stored expiry is
      cleared to null, so at any later instant every further reset for that
      e-mail, whatever token it presents, is refused as expired and changes
      nothing. */
  lemma ResetIsSingleUse(st: AuthStore, c: Crypto, email: string, token: string, password: string,
                         now: nat, token2: string, password2: string, later: nat)
    requires email != "" && token != "" && Utf16Length(password) >= MinPasswordLength && token2 != "" && password2 != ""
    requires FindByEmail(st.users, email).Some?
    requires var a := st.users[FindByEmail(st.users, email).value];
             a.passwordToken == Some(c.createHash(token)) && !Expired(a.passwordTokenExpirationDate, now)
    requires 0 < later
    ensures var st2 := ResetPassword(st, c, Some(email), Some(token), Some(password), now).state;
            ResetPassword(st2, c, Some(email), Some(token2), Some(password2), later) == Step(st2, Err(ExpiredLink))
  {
    var i := FindByEmail(st.users, email).value;
    var st2 := ResetPassword(st, c, Some(email), Some(token), Some(password), now).state;
    var a' := ResetAccount(st.users[i], c, password);
    assert st2.users == st.users[i := a'];
    FindAfterUpdate(st.users, i, a', email);
    assert st2.users[i].passwordTokenExpirationDate == Null;
  }

  /** The refresh secret a successful login hands out. */
  function SecretOf(r: Step<AuthStore, Reply>): Option<string> {
    if r.reply.Ok? && r.reply.value.Issued? && r.reply.value.refreshToken.Signed?
       && r.reply.value.refreshToken.payload.RefreshClaims?
    then Some(r.reply.value.refreshToken.payload.refreshToken)
    else None
  }

  /** Logging in again, from any client, succeeds with the secret the first
      login handed out: the session record is reused, never rotated, and
      the second login writes nothing. */
  lemma SecondLoginReusesSecret(st: AuthStore, c: Crypto, body: Body, client1: Client, client2: Client,
                                now1: nat, now2: nat, secret1: string, secret2: string)
    requires Valid(st)
    requires Login(st, c, body, client1, now1, secret1).reply.Ok?
    ensures var r1 := Login(st, c, body, client1, now1, secret1);
            var r2 := Login(r1.state, c, body, client2, now2, secret2);
            && r2.reply.Ok? && r2.state == r1.state
            && SecretOf(r2).Some? && SecretOf(r2) == SecretOf(r1)
  {
    var r1 := Login(st, c, body, client1, now1, secret1);
    var i := FindByEmail(st.users, body["email"].s).value;
    var a := st.users[i];
    var saved := SaveTokenInfo(st.tokens, a.id, secret1, client1).value;
    assert r1.state == AuthStore(st.users, saved.0);
    assert SecretOf(r1) == Some(saved.1.refreshToken);
    SessionFound(saved.0, saved.1);
    assert SaveTokenInfo(saved.0, a.id, secret2, client2) == Ok((saved.0, saved.1));
  }

  /** After a logout the next successful login creates a fresh session
      record, so the refresh secret it hands out is the newly generated one. */
  lemma LogoutThenLoginRotatesSecret(st: AuthStore, c: Crypto, body: Body, client: Client,
                                     now: nat, secret: string)
    requires Valid(st)
    requires ValidateLogin(body, c.isEmail)
    requires FindByEmail(st.users, body["email"].s).Some?
    requires c.bcryptCompare(body["password"].s, st.users[FindByEmail(st.users, body["email"].s).value].password)
    ensures var a := st.users[FindByEmail(st.users, body["email"].s).value];
            var r := Login(Logout(st, a.id).state, c, body, client, now, secret);
            && r.reply.Ok?
            && SecretOf(r) == Some(secret)
            && r.reply.value.refreshToken == CreateJWT(c.jwt, RefreshPayload(a, secret), now)
  {
    var a := st.users[FindByEmail(st.users, body["email"].s).value];
    var st1 := Logout(st, a.id).state;
    assert !HasSession(st1.tokens, a.id);
    assert st1.users == st.users;
  }

  /** forgotPassword answers a known and an unknown e-mail alike once the
      mail is queued, so the reply does not reveal which addresses have
      accounts. */
  lemma ForgotPasswordRevealsNothing(st: AuthStore, c: Crypto, known: string, unknown: string,
                                     token: string, now: nat)
    requires known != "" && unknown != ""
    requires FindByEmail(st.users, known).Some? && FindByEmail(st.users, unknown).None?
    ensures ForgotPassword(st, c, Some(known), token, now, true).reply
            == ForgotPassword(st, c, Some(unknown), token, now, true).reply
            == Ok(Done(ResetSent))
  {
  }

  /** The registration reply returns the new account without its password
      but with its verification token in clear, so the registering client
      can verify the e-mail without reading the mail. */
  lemma RegisterReplyVerifies(st: AuthStore, c: Crypto, body: Body, client: Client, now: nat,
                              newId: string, verificationToken: string, newSecret: string, later: int)
    requires Valid(st)
    requires Register(st, c, body, client, now, newId, verificationToken, newSecret, true).reply.Ok?
    ensures var r := Register(st, c, body, client, now, newId, verificationToken, newSecret, true);
            var u := r.reply.value.user;
            && u.verificationToken == Some(verificationToken)
            && VerifyEmail(r.state, c, u.email, u.verificationToken, later).reply == Ok(Done(EmailVerified))
  {
    var r := Register(st, c, body, client, now, newId, verificationToken, newSecret, true);
    var n := |st.users|;
    var a := r.state.users[n];
    assert a.verificationToken == Some(verificationToken);
    assert UniqueEmails(r.state.users);
    assert forall j :: 0 <= j < |r.state.users| && j != n ==> r.state.users[j].email != a.email;
    assert FindByEmail(r.state.users, a.email) == Some(n);
  }

  /** The `('admin', 'owner')` guard admits a signed-in account exactly when
      it is an admin: no account can hold the role `owner`. */
  lemma AdminOwnerGuard(cfg: Config, a: Account, issued: nat, now: nat, nodeEnv: string)
    requires now + 1000 <= issued + cfg.expiresIn * 1000
    ensures var cookie := AttachCookiesToResponse(CreateJWT(cfg, AccessPayload(a), issued), issued, nodeEnv);
            var v := Gate.AuthenticateUser(cfg, map[cookie.name := cookie.value], now);
            && v.Allow?
            && (Gate.AuthorizePermissions(["admin", "owner"], v.user).Allow? <==> a.role == Admin)
  {
    Gate.CookieOpensGate(cfg, TokenUserOf(a), issued, now, nodeEnv);
  }
}

=== FILE: gate.dfy ===
/** middleware/authentication.js: the request gate. `authenticateUser`
    consults only the signed `token` cookie; there is no refresh-token path.
    `authorizePermissions(...roles)` is a membership test on `req.user.role`. */
module Gate {
  import opened Common
  import opened Jwt

  /** `req.user` as the gate sets it. Fields are absent (undefined) when the
      verified payload does not carry them at top level. */
  datatype RequestUser = RequestUser(name: Option<string>, id: Option<string>, role: Option<string>)

  /** Whether the gate calls `next()` with a user, or throws. */
  datatype Verdict = Allow(user: RequestUser) | Deny(error: Error)

  /** `const {name, id, role} = payload`. */
  function ClaimsOf(p: Payload): RequestUser {
    match p
    case AccessClaims(u) => RequestUser(Some(u.name), Some(u.id), Some(u.role))
    case RefreshClaims(_, _) => RequestUser(None, None, None)
  }

  const NoToken: Error := Unauthenticated("error, no token present")
  const AuthFailed: Error := Unauthenticated("error, authentication failed")
  const NotAllowed: Error := Unauthorized("You are not authorized to access this resource")

  /** The falsy values the signed `token` cookie can hold: the empty string,
      and `false` for a cookie whose signature does not check. */
  predicate Falsy(t: Token) {
    t == Garbage("") || t == Tampered
  }

  /** authenticateUser: allows exactly when the signed `token` cookie verifies,
      with `req.user` set to its `{name, id, role}`; every other request is
      refused with an UnauthenticatedError before `next` runs, the same one
      for every kind of verification failure. */
  function AuthenticateUser(cfg: Config, signedCookies: map<string, Token>, now: nat): (v: Verdict)
    ensures v.Allow? <==> "token" in signedCookies && IsTokenValid(cfg, signedCookies["token"], now).Some?
    ensures v.Allow? ==> v.user == ClaimsOf(IsTokenValid(cfg, signedCookies["token"], now).value)
    ensures v.Deny? ==> (v.error == NoToken <==> "token" !in signedCookies || Falsy(signedCookies["token"]))
    ensures v.Deny? ==> v.error == NoToken || v.error == AuthFailed
  {
    if "token" !in signedCookies || Falsy(signedCookies["token"]) then Deny(NoToken)
    else match IsTokenValid(cfg, signedCookies["token"], now)
      case None => Deny(AuthFailed)
      case Some(p) => Allow(ClaimsOf(p))
  }

  /** authorizePermissions(...roles): passes the request on exactly when the
      caller's role is one of `roles`; an absent role is never one. */
  function AuthorizePermissions(roles: seq<string>, user: RequestUser): (v: Verdict)
    ensures v.Allow? <==> user.role.Some? && user.role.value in roles
    ensures v.Allow? ==> v.user == user
    ensures v.Deny? ==> v.error == NotAllowed
  {
    if user.role.Some? && user.role.value in roles then Allow(user) else Deny(NotAllowed)
  }

  /** The cookie set by attachCookiesToResponse for a freshly signed access
      token lets the holder through the gate, as exactly the signed claims,
      until the token's `exp`; afterwards the same cookie is refused. */
  lemma CookieOpensGate(cfg: Config, u: TokenUser, issued: nat, now: nat, nodeEnv: string)
    ensures var c := AttachCookiesToResponse(CreateJWT(cfg, AccessClaims(u), issued), issued, nodeEnv);
            now + 1000 <= issued + cfg.expiresIn * 1000 ==>
              AuthenticateUser(cfg, map[c.name := c.value], now)
                == Allow(RequestUser(Some(u.name), Some(u.id), Some(u.role)))
    ensures var c := AttachCookiesToResponse(CreateJWT(cfg, AccessClaims(u), issued), issued, nodeEnv);
            issued + cfg.expiresIn * 1000 <= now ==>
              AuthenticateUser(cfg, map[c.name := c.value], now) == Deny(AuthFailed)
  {
    TokenLifetime(cfg, AccessClaims(u), issued, now);
  }

  /** A verified refresh token presented as the `token` cookie passes the
      gate with an empty identity, which no role check then admits. */
  lemma RefreshPayloadHasNoRole(cfg: Config, jar: map<string, Token>, now: nat, roles: seq<string>)
    requires "token" in jar
    requires IsTokenValid(cfg, jar["token"], now).Some?
    requires IsTokenValid(cfg, jar["token"], now).value.RefreshClaims?
    ensures AuthenticateUser(cfg, jar, now) == Allow(RequestUser(None, None, None))
    ensures AuthorizePermissions(roles, RequestUser(None, None, None)).Deny?
  {
  }
}

=== FILE: joi.dfy ===
/** The fragment of Joi's object schemas the models use, as predicates over a
    request body. Joi refuses keys a schema does not list, refuses the empty
    string for every `string()` rule, and does not turn numbers into strings.
    The syntax of e-mail addresses and URIs is left to the caller. */
module Joi {
  import opened Common

  /** `joi.object({...})` with its default of refusing unknown keys. */
  predicate OnlyKeys(b: Body, allowed: set<string>) {
    forall k :: k in b ==> k in allowed
  }

  /** `joi.string().min(n).required()`. */
  predicate RequiredString(b: Body, key: string, min: nat) {
    key in b && b[key].JStr? && b[key].s != "" && Utf16Length(b[key].s) >= min
  }

  /** `joi.string().email().required()`. */
  predicate RequiredEmail(b: Body, key: string, isEmail: string -> bool) {
    RequiredString(b, key, 0) && isEmail(b[key].s)
  }

  /** `joi.string().uri()` on an optional key. */
  predicate OptionalUri(b: Body, key: string, isUri: string -> bool) {
    key !in b || (b[key].JStr? && b[key].s != "" && isUri(b[key].s))
  }

  /** `joi.number().required()`. */
  predicate RequiredNumber(b: Body, key: string) {
    key in b && b[key].JNum?
  }

  /** `joi.number().min(lo).max(hi).required()`. */
  predicate RequiredNumberIn(b: Body, key: string, lo: int, hi: int) {
    RequiredNumber(b, key) && lo <= b[key].n <= hi
  }

  /** `joi.number()` on an optional key. */
  predicate OptionalNumber(b: Body, key: string) {
    key !in b || b[key].JNum?
  }

  /** `joi.boolean()` on an optional key. */
  predicate OptionalBool(b: Body, key: string) {
    key !in b || b[key].JBool?
  }

  /** `joi.array()` on an optional key. */
  predicate OptionalArray(b: Body, key: string) {
    key !in b || b[key].JArr?
  }

  /** `joi.object().required()`; the controllers only ever put ObjectIds there. */
  predicate RequiredObject(b: Body, key: string) {
    key in b && b[key].JId?
  }
}

=== FILE: jwt.dfy ===
/** utils/jwt.js over an abstract signer. A token is modelled by the key it was
    signed with, its payload and its `exp` claim in seconds since the epoch
    (section 4.1.4 of RFC 7519); producing a token that verifies under a key
    takes holding that key. Clock readings are milliseconds, as Date.now(). */
module Jwt {
  import opened Common

  /** The `{name, id, role}` claims built by the User model. */
  datatype TokenUser = TokenUser(name: string, id: string, role: string)

  /** Payloads the application signs: `createJWT` puts the claims at top
      level, `createRefreshJWT` nests them under `user` beside the secret. */
  datatype Payload =
    | AccessClaims(user: TokenUser)
    | RefreshClaims(user: TokenUser, refreshToken: string)

  /** A token as a client presents it: signed, anything else, or the `false`
      that cookie-parser puts in place of a signed cookie whose cookie
      signature does not check. */
  datatype Token =
    | Signed(key: string, payload: Payload, exp: int)
    | Garbage(text: string)
    | Tampered

  /** JWT_SECRET and JWT_EXPIRATION (a lifetime in seconds). */
  datatype Config = Config(secret: string, expiresIn: nat)

  /** Whole seconds of a millisecond clock reading, as the signer's `iat`. */
  function Seconds(ms: nat): nat {
    ms / 1000
  }

  /** jwt.sign(payload, JWT_SECRET, {expiresIn}) at clock reading `now`. */
  function CreateJWT(cfg: Config, payload: Payload, now: nat): Token {
    Signed(cfg.secret, payload, Seconds(now) + cfg.expiresIn)
  }

  /** jwt.verify(token, JWT_SECRET): the payload, or None where the library
      throws (bad signature, malformed token, or `exp` not in the future). */
  function IsTokenValid(cfg: Config, t: Token, now: nat): Option<Payload> {
    match t
    case Garbage(_) => None
    case Tampered => None
    case Signed(key, payload, exp) =>
      if key == cfg.secret && Seconds(now) < exp then Some(payload) else None
  }

  /** A token made by CreateJWT verifies to its own payload until its `exp`
      and never afterwards. Because `iat` is truncated to whole seconds, the
      usable window is at least `expiresIn` seconds minus one second. */
  lemma TokenLifetime(cfg: Config, payload: Payload, issued: nat, now: nat)
    ensures now + 1000 <= issued + cfg.expiresIn * 1000 ==>
              IsTokenValid(cfg, CreateJWT(cfg, payload, issued), now) == Some(payload)
    ensures issued + cfg.expiresIn * 1000 <= now ==>
              IsTokenValid(cfg, CreateJWT(cfg, payload, issued), now) == None
  {
    var s := issued / 1000;
    var e := s + cfg.expiresIn;
    assert s * 1000 <= issued < s * 1000 + 1000;
    if now + 1000 <= issued + cfg.expiresIn * 1000 {
      assert now < e * 1000;
      assert now / 1000 < e;
    }
    if issued + cfg.expiresIn * 1000 <= now {
      assert e * 1000 <= now;
      assert e <= now / 1000;
    }
  }

  /** A token signed with another key, or one that is not a signed token at
      all, never verifies, whatever the clock says. */
  lemma ForeignTokensRejected(cfg: Config, t: Token, now: nat)
    requires !t.Signed? || t.key != cfg.secret
    ensures IsTokenValid(cfg, t, now) == None
  {
  }

  /** A cookie as res.cookie(name, value, options) sets it. */
  datatype Cookie = Cookie(name: string, value: Token, expires: int,
                           httpOnly: bool, secure: bool, signed: bool)

  const OneDay: nat := 60 * 60 * 24 * 1000

  /** attachCookiesToResponse(token, res): the `token` cookie lives one day,
      is never readable from scripts (HttpOnly, section 4.1.2.6 of RFC 6265),
      is signed with the cookie secret, and carries the Secure attribute
      (section 4.1.2.5 of RFC 6265) exactly in production. */
  function AttachCookiesToResponse(token: Token, now: nat, nodeEnv: string): (c: Cookie)
    ensures c.name == "token" && c.value == token
    ensures c.expires == now + 86400000
    ensures c.httpOnly && c.signed
    ensures c.secure <==> nodeEnv == "production"
  {
    Cookie("token", token, now + OneDay, true, nodeEnv == "production", true)
  }

  /** jwt.decode: the payload of anything that parses, with no signature and
      no expiry check. */
  function Decode(t: Token): Option<Payload> {
    match t
    case Garbage(_) => None
    case Tampered => None
    case Signed(_, payload, _) => Some(payload)
  }

  /** The `decodeCookies` middleware: reads `token` from the signed cookies
      (or from the plain cookies when there is no signed-cookie object) and
      sets `req.user` to its decoded payload, or null. */
  function DecodeCookies(signedCookies: Option<map<string, Token>>,
                         cookies: map<string, Token>): (user: Option<Payload>)
    ensures var jar := if signedCookies.Some? then signedCookies.value else cookies;
            user.Some? <==> "token" in jar && jar["token"].Signed?
  {
    var jar := if signedCookies.Some? then signedCookies.value else cookies;
    if "token" in jar then Decode(jar["token"]) else None
  }

  /** Whatever `isTokenValid` accepts, `decodeCookies` accepts with the same
      payload; and it also accepts tokens `isTokenValid` rejects: an expired
      one, or one signed with a different key. */
  lemma DecodeAcceptsMoreThanVerify(cfg: Config, jar: map<string, Token>, now: nat)
    requires "token" in jar
    ensures IsTokenValid(cfg, jar["token"], now).Some? ==>
              DecodeCookies(Some(jar), map[]) == IsTokenValid(cfg, jar["token"], now)
    ensures jar["token"].Signed? && jar["token"].exp <= Seconds(now) ==>
              IsTokenValid(cfg, jar["token"], now).None? &&
              DecodeCookies(Some(jar), map[]) == Some(jar["token"].payload)
    ensures jar["token"].Signed? && jar["token"].key != cfg.secret ==>
              IsTokenValid(cfg, jar["token"], now).None? &&
              DecodeCookies(Some(jar), map[]) == Some(jar["token"].payload)
  {
  }
}

=== FILE: legacy_auth.dfy ===
/** controllers/auth-controller.js: the older, stateless variant of register,
    login and logout. It keeps no session record: the only credential is the
    signed access token, handed back in the reply and in the `token` cookie. */
module LegacyAuth {
  import opened Common
  import opened Jwt
  import opened Users
  import Auth
  import Gate

  datatype Reply =
    | Created(user: PublicUser, token: Token, cookie: Cookie)
    | LoggedIn(user: PublicUser, token: Token, cookie: Cookie)
    | LoggedOut(clearedCookies: seq<string>)

  /** register: a body Joi refuses is answered with 400 and an e-mail already
      in use throws, both before any write. Otherwise one account is created,
      `admin` exactly when no admin exists yet, with its password hashed and
      without a verification token; the session collection is not used. */
  function Register(st: Auth.AuthStore, c: Auth.Crypto, body: Body, now: nat, newId: string,
                    nodeEnv: string): (r: Step<Auth.AuthStore, Reply>)
    ensures r.state.tokens == st.tokens
    ensures !ValidateUserSchema(body, c.isEmail) ==> r == Step(st, Err(Invalid))
    ensures ValidateUserSchema(body, c.isEmail) && FindByEmail(st.users, body["email"].s).Some? ==>
              r == Step(st, Err(Auth.EmailInUse))
    ensures r.reply.Ok? ==>
              && ValidateUserSchema(body, c.isEmail)
              && |r.state.users| == |st.users| + 1
              && r.state.users[..|st.users|] == st.users
              && var a := r.state.users[|st.users|];
                 && a.name == body["name"].s
                 && a.email == body["email"].s
                 && !a.isVerified
                 && a.password == c.bcryptHash(body["password"].s)
                 && (a.role == Admin <==> forall i :: 0 <= i < |st.users| ==> st.users[i].role != Admin)
                 && a.verificationToken == None
                 && r.reply.value == Created(Public(a), CreateJWT(c.jwt, AccessPayload(a), now),
                                            AttachCookiesToResponse(CreateJWT(c.jwt, AccessPayload(a), now), now, nodeEnv))
    ensures ValidateUserSchema(body, c.isEmail) && FindByEmail(st.users, body["email"].s).None? ==> r.reply.Ok?
    ensures Auth.Valid(st) ==> Auth.Valid(r.state)
  {
    if !ValidateUserSchema(body, c.isEmail) then Step(st, Err(Invalid))
    else
      var email := body["email"].s;
      if FindByEmail(st.users, email).Some? then Step(st, Err(Auth.EmailInUse))
      else
        AdminCountZero(st.users);
        var role := if AdminCount(st.users) == 0 then Admin else User;
        var a := PreSave(NewAccount(newId, body["name"].s, email, body["password"].s, role, None),
                         true, c.bcryptHash);
        var users' := st.users + [a];
        assert users'[..|st.users|] == st.users;
        var token := CreateJWT(c.jwt, AccessPayload(a), now);
        Step(st.(users := users'), Ok(Created(Public(a), token, AttachCookiesToResponse(token, now, nodeEnv))))
  }

  /** login: changes nothing on the server. An unknown e-mail is a
      BadRequestError and a wrong password an UnauthenticatedError, so the two
      failures can be told apart; success returns the account without its
      password and sets the `token` cookie. */
  function Login(users: seq<Account>, c: Auth.Crypto, body: Body, now: nat, nodeEnv: string)
    : (r: Result<Reply>)
    ensures !ValidateLogin(body, c.isEmail) ==> r == Err(Invalid)
    ensures ValidateLogin(body, c.isEmail) && FindByEmail(users, body["email"].s).None? ==>
              r == Err(Auth.UnknownEmail)
    ensures ValidateLogin(body, c.isEmail) && FindByEmail(users, body["email"].s).Some? ==>
              var a := users[FindByEmail(users, body["email"].s).value];
              && (!c.bcryptCompare(body["password"].s, a.password) ==> r == Err(Auth.WrongPassword))
              && (c.bcryptCompare(body["password"].s, a.password) ==>
                    r == Ok(LoggedIn(Public(a), CreateJWT(c.jwt, AccessPayload(a), now),
                                     AttachCookiesToResponse(CreateJWT(c.jwt, AccessPayload(a), now), now, nodeEnv))))
  {
    if !ValidateLogin(body, c.isEmail) then Err(Invalid)
    else match FindByEmail(users, body["email"].s)
      case None => Err(Auth.UnknownEmail)
      case Some(i) =>
        var a := users[i];
        if !c.bcryptCompare(body["password"].s, a.password) then Err(Auth.WrongPassword)
        else
          var token := CreateJWT(c.jwt, AccessPayload(a), now);
          Ok(LoggedIn(Public(a), token, AttachCookiesToResponse(token, now, nodeEnv)))
  }

  /** The cookie a successful login sets lets its holder through the gate as
      the account that logged in, with that account's role, for the token's
      lifetime. */
  lemma LoginCookieOpensGate(users: seq<Account>, c: Auth.Crypto, body: Body, now: nat, later: nat,
                             nodeEnv: string)
    requires ValidateLogin(body, c.isEmail)
    requires FindByEmail(users, body["email"].s).Some?
    requires c.bcryptCompare(body["password"].s, users[FindByEmail(users, body["email"].s).value].password)
    requires later + 1000 <= now + c.jwt.expiresIn * 1000
    ensures var a := users[FindByEmail(users, body["email"].s).value];
            var r := Login(users, c, body, now, nodeEnv);
            && r.Ok?
            && Gate.AuthenticateUser(c.jwt, map[r.value.cookie.name := r.value.cookie.value], later)
               == Gate.Allow(Gate.RequestUser(Some(a.name), Some(a.id), Some(RoleName(a.role))))
  {
    var a := users[FindByEmail(users, body["email"].s).value];
    Gate.CookieOpensGate(c.jwt, TokenUserOf(a), now, later, nodeEnv);
  }

  /** logout: clears only the `token` cookie; no server-side state changes. */
  function Logout(st: Auth.AuthStore): (r: Step<Auth.AuthStore, Reply>)
    ensures r.state == st
    ensures r.reply == Ok(LoggedOut(["token"]))
  {
    Step(st, Ok(LoggedOut(["token"])))
  }
}

=== FILE: orders.dfy ===
/** controllers/orderController.js: pricing a cart into an order, the
    cache-aside read of every order, marking an order paid, and the two
    per-order reads. The cache holds at most the one all-orders entry; the
    payment provider's client secret is a parameter. */
module Orders {
  import opened Common
  import opened Gate
  import opened ShopModel

  datatype CartItem = CartItem(product: string, quantity: int)

  datatype OrderItem = OrderItem(name: string, price: int, quantity: int, image: string, product: string)

  /** The `status` enum; `pending` is the default. */
  datatype Status = Pending | Paid | Delivered | Canceled | Failed

  datatype Order = Order(
    id: string,
    orderItems: seq<OrderItem>,
    tax: int,
    shippingFee: int,
    subtotal: int,
    total: int,
    user: string,
    status: Status,
    clientSecret: string,
    paymentIntentId: Option<string>)

  /** The order collection and the cached copy of `Order.find({})`, if any. */
  datatype OrderStore = OrderStore(orders: seq<Order>, cache: Option<seq<Order>>)

  const NoCartItems: Error := BadRequest("No cart items provided")
  const NoTaxOrFee: Error := BadRequest("Tax and shipping fee is required")
  const NoOrders: Error := BadRequest("No order found")
  const NoOrdersYet: Error := BadRequest("You do not have any order yet.")

  /** A cached list is never different from the collection it copies, and
      is never empty (an empty read is not cached). */
  predicate CacheCoherent(st: OrderStore) {
    st.cache.Some? ==> st.cache.value == st.orders && |st.orders| > 0
  }

  // ---------------------------------------------------------------------
  // Pricing

  /** A cart line the handler cannot price: its product id is not an
      ObjectId (the lookup throws a cast error) or names no product. */
  predicate Unpriceable(products: seq<Product>, isObjectId: string -> bool, c: CartItem) {
    !isObjectId(c.product) || FindProduct(products, c.product).None?
  }

  function ItemError(isObjectId: string -> bool, c: CartItem): Error {
    if !isObjectId(c.product) then CastFailure else BadRequest("No product with id " + c.product)
  }

  /** The first cart line that cannot be priced. */
  function FirstUnpriceable(products: seq<Product>, isObjectId: string -> bool, cart: seq<CartItem>): Option<nat> {
    IndexOf(cart, (c: CartItem) => Unpriceable(products, isObjectId, c))
  }

  /** The order line for a cart line: name, price and image from the stored
      product, the quantity from the cart. */
  function ItemFor(products: seq<Product>, c: CartItem): OrderItem
    requires FindProduct(products, c.product).Some?
  {
    var p := products[FindProduct(products, c.product).value];
    OrderItem(p.name, p.price, c.quantity, p.image, p.id)
  }

  function LineTotal(item: OrderItem): int {
    item.quantity * item.price
  }

  /** The reference sum of quantity times price over order lines. */
  function Subtotal(items: seq<OrderItem>): int {
    if |items| == 0 then 0
    else Subtotal(items[..|items| - 1]) + LineTotal(items[|items| - 1])
  }

  lemma SubtotalSnoc(items: seq<OrderItem>, item: OrderItem)
    ensures Subtotal(items + [item]) == Subtotal(items) + LineTotal(item)
  {
    assert (items + [item])[..|items|] == items;
  }

  lemma FirstUnpriceableAt(products: seq<Product>, isObjectId: string -> bool, cart: seq<CartItem>, k: nat)
    requires k < |cart| && Unpriceable(products, isObjectId, cart[k])
    requires forall j :: 0 <= j < k ==> !Unpriceable(products, isObjectId, cart[j])
    ensures FirstUnpriceable(products, isObjectId, cart) == Some(k)
  {
    var f := FirstUnpriceable(products, isObjectId, cart);
    assert f.Some?;
  }

  /** The pricing loop: either the error of the first line that cannot be
      priced, or one order line per cart line, in cart order, with the
      subtotal of quantity times stored price. */
  method PriceCart(products: seq<Product>, cart: seq<CartItem>, isObjectId: string -> bool)
    returns (r: Result<(seq<OrderItem>, int)>)
    ensures r.Err? <==> exists k :: 0 <= k < |cart| && Unpriceable(products, isObjectId, cart[k])
    ensures r.Err? ==> r.error == ItemError(isObjectId, cart[FirstUnpriceable(products, isObjectId, cart).value])
    ensures r.Ok? ==> |r.value.0| == |cart|
    ensures r.Ok? ==> forall k :: 0 <= k < |cart| ==>
              FindProduct(products, cart[k].product).Some? && r.value.0[k] == ItemFor(products, cart[k])
    ensures r.Ok? ==> r.value.1 == Subtotal(r.value.0)
  {
    var items: seq<OrderItem> := [];
    var subtotal := 0;
    var k := 0;
    while k < |cart|
      invariant 0 <= k <= |cart|
      invariant |items| == k
      invariant forall j :: 0 <= j < k ==> !Unpriceable(products, isObjectId, cart[j]) && items[j] == ItemFor(products, cart[j])
      invariant subtotal == Subtotal(items)
    {
      var c := cart[k];
      if Unpriceable(products, isObjectId, c) {
        FirstUnpriceableAt(products, isObjectId, cart, k);
        r := Err(ItemError(isObjectId, c));
        return;
      }
      var item := ItemFor(products, c);
      SubtotalSnoc(items, item);
      subtotal := subtotal + LineTotal(item);
      items := items + [item];
      k := k + 1;
    }
    assert forall j :: 0 <= j < |cart| ==> !Unpriceable(products, isObjectId, cart[j]);
    r := Ok((items, subtotal));
  }

  /** What the order schema's `required` rules refuse: an empty client
      secret, or a line with an empty name or image. */
  predicate OrderSchemaAccepts(o: Order) {
    && o.clientSecret != ""
    && forall k :: 0 <= k < |o.orderItems| ==> o.orderItems[k].name != "" && o.orderItems[k].image != ""
  }

  /** createOrder: a missing or empty cart, then a falsy tax or shipping fee
      (0 included), then the first cart line that cannot be priced, are each
      refused with nothing written and the cache untouched. Otherwise one
      pending order is added whose total is tax + shipping fee + subtotal,
      and the all-orders cache entry is dropped. */
  method CreateOrder(st: OrderStore, products: seq<Product>, callerId: string,
                     items: Option<seq<CartItem>>, tax: Option<int>, shippingFee: Option<int>,
                     newId: string, clientSecret: string, isObjectId: string -> bool)
    returns (r: Step<OrderStore, Order>)
    ensures items.None? || |items.value| == 0 ==> r == Step(st, Err(NoCartItems))
    ensures items.Some? && |items.value| > 0 && (!TruthyNum(tax) || !TruthyNum(shippingFee)) ==>
              r == Step(st, Err(NoTaxOrFee))
    ensures items.Some? && TruthyNum(tax) && TruthyNum(shippingFee) && FirstUnpriceable(products, isObjectId, items.value).Some? ==>
              r == Step(st, Err(ItemError(isObjectId, items.value[FirstUnpriceable(products, isObjectId, items.value).value])))
    ensures r.reply.Err? ==> r.state == st
    ensures r.reply.Ok? ==>
              var o := r.reply.value;
              && items.Some? && |o.orderItems| == |items.value| > 0
              && (forall k :: 0 <= k < |items.value| ==>
                    FindProduct(products, items.value[k].product).Some?
                    && o.orderItems[k] == ItemFor(products, items.value[k]))
              && o.subtotal == Subtotal(o.orderItems)
              && o.tax == tax.value && o.shippingFee == shippingFee.value
              && o.total == o.tax + o.shippingFee + o.subtotal
              && o.id == newId && o.user == callerId && o.status == Pending && o.paymentIntentId == None
              && o.clientSecret == clientSecret
              && r.state == OrderStore(st.orders + [o], None)
    ensures items.Some? && |items.value| > 0 && TruthyNum(tax) && TruthyNum(shippingFee)
            && FirstUnpriceable(products, isObjectId, items.value).None? ==>
              (r.reply.Ok? <==>
                 && clientSecret != ""
                 && forall k :: 0 <= k < |items.value| ==>
                      ItemFor(products, items.value[k]).name != "" && ItemFor(products, items.value[k]).image != "")
    ensures CacheCoherent(st) ==> CacheCoherent(r.state)
  {
    if items.None? || |items.value| < 1 {
      return Step(st, Err(NoCartItems));
    }
    if !TruthyNum(tax) || !TruthyNum(shippingFee) {
      return Step(st, Err(NoTaxOrFee));
    }
    var priced := PriceCart(products, items.value, isObjectId);
    if priced.Err? {
      return Step(st, Err(priced.error));
    }
    var orderItems := priced.value.0;
    var subtotal := priced.value.1;
    var order := Order(newId, orderItems, tax.value, shippingFee.value, subtotal,
                       tax.value + shippingFee.value + subtotal, callerId, Pending, clientSecret, None);
    if !OrderSchemaAccepts(order) {
      return Step(st, Err(SchemaViolation));
    }
    return Step(OrderStore(st.orders + [order], None), Ok(order));
  }

  // ---------------------------------------------------------------------
  // Reads and the payment update

  /** getAllOrders, cache-aside: a cached list is answered as is; otherwise
      the collection is read, an empty one is refused without caching, and a
      non-empty one is cached and answered. */
  function GetAllOrders(st: OrderStore): (r: Step<OrderStore, seq<Order>>)
    ensures r.state.orders == st.orders
    ensures st.cache.Some? ==> r == Step(st, Ok(st.cache.value))
    ensures st.cache.None? && |st.orders| == 0 ==> r == Step(st, Err(NoOrders))
    ensures st.cache.None? && |st.orders| > 0 ==> r == Step(OrderStore(st.orders, Some(st.orders)), Ok(st.orders))
  {
    match st.cache
    case Some(cached) => Step(st, Ok(cached))
    case None =>
      if |st.orders| == 0 then Step(st, Err(NoOrders))
      else Step(st.(cache := Some(st.orders)), Ok(st.orders))
  }

  /** With a coherent cache the cached read answers exactly what a read of
      the collection would, and leaves the cache coherent. */
  lemma CoherentReadIsFresh(st: OrderStore)
    requires CacheCoherent(st)
    ensures GetAllOrders(st).reply == (if |st.orders| == 0 then Err(NoOrders) else Ok(st.orders))
    ensures CacheCoherent(GetAllOrders(st).state)
  {
  }

  /** `Order.findOne` on an order id. */
  function FindOrder(orders: seq<Order>, id: string): Option<nat> {
    IndexOf(orders, (o: Order) => o.id == id)
  }

  /** updateOrder: the handler reads the owner before its null check, so a
      missing order throws a TypeError; a refused caller gets the permission
      error. Otherwise only the status (now `paid`) and the payment intent id
      change, and the all-orders cache entry is dropped. */
  function UpdateOrder(st: OrderStore, caller: RequestUser, orderId: string, paymentIntentId: Option<string>,
                       checkPermissions: (RequestUser, string) -> Option<Error>): (r: Step<OrderStore, Order>)
    ensures FindOrder(st.orders, orderId).None? ==> r == Step(st, Err(TypeFailure))
    ensures r.reply.Err? ==> r.state == st
    ensures FindOrder(st.orders, orderId).Some? ==>
              var i := FindOrder(st.orders, orderId).value;
              && (checkPermissions(caller, st.orders[i].user).Some? ==>
                    r.reply == Err(checkPermissions(caller, st.orders[i].user).value))
              && (checkPermissions(caller, st.orders[i].user).None? ==>
                    && r.reply.Ok?
                    && r.reply.value.(status := st.orders[i].status, paymentIntentId := st.orders[i].paymentIntentId)
                       == st.orders[i]
                    && r.reply.value.status == Paid && r.reply.value.paymentIntentId == paymentIntentId
                    && r.state == OrderStore(st.orders[i := r.reply.value], None))
    ensures CacheCoherent(st) ==> CacheCoherent(r.state)
  {
    match FindOrder(st.orders, orderId)
    case None => Step(st, Err(TypeFailure))
    case Some(i) =>
      var o := st.orders[i];
      match checkPermissions(caller, o.user)
      case Some(e) => Step(st, Err(e))
      case None =>
        var paid := o.(status := Paid, paymentIntentId := paymentIntentId);
        Step(OrderStore(st.orders[i := paid], None), Ok(paid))
  }

  /** getSingleOrder: as updateOrder, a missing order throws a TypeError
      before the not-found check could run. */
  function GetSingleOrder(orders: seq<Order>, caller: RequestUser, orderId: string,
                          checkPermissions: (RequestUser, string) -> Option<Error>): (r: Result<Order>)
    ensures FindOrder(orders, orderId).None? ==> r == Err(TypeFailure)
    ensures FindOrder(orders, orderId).Some? ==>
              var o := orders[FindOrder(orders, orderId).value];
              && (checkPermissions(caller, o.user).Some? ==> r == Err(checkPermissions(caller, o.user).value))
              && (checkPermissions(caller, o.user).None? ==> r == Ok(o))
    ensures r.Ok? ==> r.value in orders && r.value.id == orderId
  {
    match FindOrder(orders, orderId)
    case None => Err(TypeFailure)
    case Some(i) =>
      match checkPermissions(caller, orders[i].user)
      case Some(e) => Err(e)
      case None => Ok(orders[i])
  }

  /** Order ids are unique, as `_id` values are. */
  predicate UniqueOrderIds(orders: seq<Order>) {
    forall i, j :: 0 <= i < j < |orders| ==> orders[i].id != orders[j].id
  }

  /** In a store with unique ids, every stored order is what getSingleOrder
      answers for its id to a caller the permission check admits, and the
      permission error is what it answers to any other caller. */
  lemma SingleOrderFindsStored(orders: seq<Order>, caller: RequestUser, o: Order,
                               checkPermissions: (RequestUser, string) -> Option<Error>)
    requires UniqueOrderIds(orders) && o in orders
    ensures checkPermissions(caller, o.user).None? ==> GetSingleOrder(orders, caller, o.id, checkPermissions) == Ok(o)
    ensures checkPermissions(caller, o.user).Some? ==>
              GetSingleOrder(orders, caller, o.id, checkPermissions) == Err(checkPermissions(caller, o.user).value)
  {
    var m :| 0 <= m < |orders| && orders[m] == o;
    assert orders[m].id == o.id;
    var i := FindOrder(orders, o.id).value;
    assert orders[i].id == o.id;
    assert forall j :: 0 <= j < |orders| && j != m ==> orders[j].id != o.id;
  }

  /** getCurrentUserOrders: a user id the ObjectId cast of the `user` path
      refuses throws; otherwise every order of the user named in the route,
      in store order, or a BadRequest when there is none. */
  function GetCurrentUserOrders(orders: seq<Order>, userId: string, isObjectId: string -> bool)
    : (r: Result<seq<Order>>)
    ensures !isObjectId(userId) ==> r == Err(CastFailure)
    ensures isObjectId(userId) ==> (r.Err? <==> forall i :: 0 <= i < |orders| ==> orders[i].user != userId)
    ensures isObjectId(userId) && r.Err? ==> r.error == NoOrdersYet
    ensures r.Ok? ==> forall k :: 0 <= k < |r.value| ==> r.value[k] in orders && r.value[k].user == userId
    ensures r.Ok? ==> forall i :: 0 <= i < |orders| && orders[i].user == userId ==> orders[i] in r.value
    ensures r.Ok? ==> forall o :: multiset(r.value)[o] == if o.user == userId then multiset(orders)[o] else 0
  {
    if !isObjectId(userId) then Err(CastFailure)
    else
      var mine := Filter(orders, (o: Order) => o.user == userId);
      if |mine| == 0 then
        assert forall i :: 0 <= i < |orders| ==> orders[i].user != userId by {
          forall i | 0 <= i < |orders| ensures orders[i].user != userId {
            assert orders[i] !in mine;
          }
        }
        Err(NoOrdersYet)
      else
        assert mine[0] in orders;
        FilterCount(orders, (o: Order) => o.user == userId);
        Ok(mine)
  }

  /** The listing keeps store order: an order stored last is listed last
      when it belongs to the user, and leaves the listing unchanged otherwise. */
  lemma CurrentUserOrdersSnoc(orders: seq<Order>, o: Order, userId: string, isObjectId: string -> bool)
    requires GetCurrentUserOrders(orders, userId, isObjectId).Ok?
    ensures o.user == userId ==>
      GetCurrentUserOrders(orders + [o], userId, isObjectId)
        == Ok(GetCurrentUserOrders(orders, userId, isObjectId).value + [o])
    ensures o.user != userId ==>
      GetCurrentUserOrders(orders + [o], userId, isObjectId) == GetCurrentUserOrders(orders, userId, isObjectId)
  {
    FilterSnoc(orders, o, (x: Order) => x.user == userId);
    var mine := Filter(orders, (x: Order) => x.user == userId);
    var grown := Filter(orders + [o], (x: Order) => x.user == userId);
    assert GetCurrentUserOrders(orders, userId, isObjectId) == Ok(mine);
    assert |mine| > 0;
    if o.user == userId {
      assert grown == mine + [o];
    } else {
      assert grown == mine;
    }
    assert |grown| > 0;
    assert GetCurrentUserOrders(orders + [o], userId, isObjectId) == Ok(grown);
  }

  /** Dropping the cache entry is what keeps reads fresh: had a write left a
      cached list in place, the next read would miss the new order. */
  lemma StaleWithoutInvalidation(o1: Order, o2: Order)
    requires o1 != o2
    ensures var st := OrderStore([o1, o2], Some([o1]));
            && !CacheCoherent(st)
            && GetAllOrders(st).reply == Ok([o1])
            && GetAllOrders(st).reply != Ok(st.orders)
  {
    assert [o1] != [o1, o2];
  }
}

=== FILE: products.dfy ===
/** controllers/productController.js and the validator of models/Product.js:
    creating a product, the paginated listing, reading one product and
    deleting one together with its reviews. */
module Products {
  import opened Common
  import opened Joi
  import opened ShopModel

  /** validateProductSchema. `numberOfReviews` is not among the keys, so a
      body carrying it is refused; `averageRating` is. */
  predicate ValidateProductSchema(b: Body, isUri: string -> bool) {
    && OnlyKeys(b, {"name", "price", "description", "image", "category", "company", "colors",
                    "featured", "freeShipping", "inventory", "averageRating", "user"})
    && RequiredString(b, "name", 3)
    && RequiredNumber(b, "price")
    && RequiredString(b, "description", 10)
    && OptionalUri(b, "image", isUri)
    && RequiredString(b, "category", 3)
    && RequiredString(b, "company", 3)
    && OptionalArray(b, "colors")
    && OptionalBool(b, "featured")
    && OptionalBool(b, "freeShipping")
    && OptionalNumber(b, "inventory")
    && OptionalNumber(b, "averageRating")
    && RequiredObject(b, "user")
  }

  /** Mongoose's cast of one array element to String: scalars and ObjectIds
      become their string form, a nested array cannot be cast. */
  function CastColor(j: Json): (r: Option<string>)
    ensures r.None? <==> j.JArr?
    ensures j.JStr? ==> r == Some(j.s)
  {
    match j
    case JStr(s) => Some(s)
    case JNum(n) => Some(IntToString(n))
    case JBool(b) => Some(if b then "true" else "false")
    case JId(id) => Some(id)
    case JArr(_) => None
  }

  /** The cast of a whole `[String]` path: it fails exactly when one element
      cannot be cast, and keeps string elements as they are. */
  function CastColors(items: seq<Json>): (r: Option<seq<string>>)
    ensures r.None? <==> exists i :: 0 <= i < |items| && items[i].JArr?
    ensures r.Some? ==> |r.value| == |items|
    ensures r.Some? ==> forall i :: 0 <= i < |items| ==> Some(r.value[i]) == CastColor(items[i])
  {
    if |items| == 0 then Some([])
    else match (CastColor(items[0]), CastColors(items[1..]))
      case (Some(c), Some(cs)) => Some([c] + cs)
      case (None, _) => None
      case (_, None) =>
        assert forall i :: 1 <= i < |items| ==> items[i] == items[1..][i - 1];
        None
  }

  /** The document `Product.create` builds from a validated body: the name
      trimmed, the schema defaults for every optional path left out, no
      review aggregate but the default. `None` when a colour cannot be cast. */
  function Build(b: Body, id: string, owner: string): Option<Product>
    requires RequiredString(b, "name", 3) && RequiredNumber(b, "price")
    requires RequiredString(b, "description", 10) && RequiredString(b, "category", 3)
    requires RequiredString(b, "company", 3) && OptionalArray(b, "colors")
    requires "image" in b ==> b["image"].JStr?
    requires OptionalBool(b, "featured") && OptionalBool(b, "freeShipping")
    requires OptionalNumber(b, "inventory") && OptionalNumber(b, "averageRating")
  {
    var colors := if "colors" in b then CastColors(b["colors"].items) else Some(DefaultColors);
    if colors.None? then None
    else Some(Product(
      id,
      Trim(b["name"].s),
      b["price"].n,
      b["description"].s,
      if "image" in b then b["image"].s else DefaultImage,
      b["category"].s,
      b["company"].s,
      colors.value,
      if "featured" in b then b["featured"].b else false,
      if "freeShipping" in b then b["freeShipping"].b else false,
      if "inventory" in b then b["inventory"].n else DefaultInventory,
      if "averageRating" in b then b["averageRating"].n else DefaultRating,
      0,
      owner))
  }

  /** The body as the handler validates it: `user` replaced by the caller. */
  function Owned(body: Body, callerId: string): Body {
    body["user" := JId(callerId)]
  }

  /** createProduct: the owner is the authenticated caller whatever the body
      says; a body Joi refuses is a 400 with nothing written; a document the
      schema refuses (enum, description length, uncastable colour) is a
      ValidationError with nothing written; otherwise exactly one product is
      added, with the schema defaults for every path the body leaves out. */
  function CreateProduct(shop: Shop, callerId: string, body: Body, newId: string, isUri: string -> bool)
    : (r: Step<Shop, Product>)
    ensures r.state.reviews == shop.reviews
    ensures r.reply.Err? ==> r.state == shop
    ensures !ValidateProductSchema(Owned(body, callerId), isUri) ==> r.reply == Err(Invalid)
    ensures ValidateProductSchema(Owned(body, callerId), isUri) ==> r.reply != Err(Invalid)
    ensures r.reply.Ok? ==>
              var p := r.reply.value;
              && r.state.products == shop.products + [p]
              && SchemaAccepts(p)
              && p.id == newId && p.user == callerId && p.numberOfReviews == 0
              && p.name == Trim(body["name"].s) && p.price == body["price"].n
              && p.description == body["description"].s
              && p.category == body["category"].s && p.company == body["company"].s
              && p.image == (if "image" in body then body["image"].s else DefaultImage)
              && ("colors" !in body ==> p.colors == DefaultColors)
              && ("colors" in body ==> Some(p.colors) == CastColors(body["colors"].items))
              && p.featured == ("featured" in body && body["featured"].b)
              && p.freeShipping == ("freeShipping" in body && body["freeShipping"].b)
              && p.inventory == (if "inventory" in body then body["inventory"].n else DefaultInventory)
              && p.averageRating == (if "averageRating" in body then body["averageRating"].n else DefaultRating)
    ensures ValidateProductSchema(Owned(body, callerId), isUri) && r.reply.Err? ==> r.reply == Err(SchemaViolation)
    ensures ValidateProductSchema(Owned(body, callerId), isUri) ==>
              (r.reply.Ok? <==>
                 && body["category"].s in Categories
                 && body["company"].s in Companies
                 && Utf16Length(body["description"].s) <= MaxDescription
                 && ("colors" in body ==> forall i :: 0 <= i < |body["colors"].items| ==> !body["colors"].items[i].JArr?))
  {
    var b := Owned(body, callerId);
    if !ValidateProductSchema(b, isUri) then Step(shop, Err(Invalid))
    else match Build(b, newId, callerId)
      case None => Step(shop, Err(SchemaViolation))
      case Some(p) =>
        if !SchemaAccepts(p) then Step(shop, Err(SchemaViolation))
        else Step(shop.(products := shop.products + [p]), Ok(p))
  }

  /** Whatever owner a body names, the product created belongs to the caller. */
  lemma OwnerIsCaller(shop: Shop, callerId: string, claimed: string, body: Body, newId: string, isUri: string -> bool)
    ensures var r := CreateProduct(shop, callerId, body["user" := JId(claimed)], newId, isUri);
            r.reply.Ok? ==> r.reply.value.user == callerId
    ensures CreateProduct(shop, callerId, body["user" := JId(claimed)], newId, isUri)
            == CreateProduct(shop, callerId, body, newId, isUri)
  {
    assert Owned(body["user" := JId(claimed)], callerId) == Owned(body, callerId);
  }

  /** A client cannot set the review count: a body naming it is refused. */
  lemma ReviewCountNotSettable(shop: Shop, callerId: string, body: Body, newId: string, isUri: string -> bool)
    requires "numberOfReviews" in body
    ensures CreateProduct(shop, callerId, body, newId, isUri) == Step(shop, Err(Invalid))
  {
    assert "numberOfReviews" in Owned(body, callerId);
    assert !ValidateProductSchema(Owned(body, callerId), isUri);
  }

  /** The validator checks only lengths where the schema has enums: a body
      Joi accepts can still be refused when saved. */
  lemma EnumStricterThanValidator(shop: Shop, callerId: string, newId: string, isUri: string -> bool)
    ensures var body := map["name" := JStr("Desk"), "price" := JNum(100),
                            "description" := JStr("A wide desk"), "category" := JStr("garden"),
                            "company" := JStr("ikea")];
            && ValidateProductSchema(Owned(body, callerId), isUri)
            && CreateProduct(shop, callerId, body, newId, isUri) == Step(shop, Err(SchemaViolation))
  {
    var body := map["name" := JStr("Desk"), "price" := JNum(100),
                    "description" := JStr("A wide desk"), "category" := JStr("garden"),
                    "company" := JStr("ikea")];
    var b := Owned(body, callerId);
    assert b.Keys == {"name", "price", "description", "category", "company", "user"};
    assert b["name"] == JStr("Desk") && b["description"] == JStr("A wide desk");
    assert b["category"] == JStr("garden") && b["company"] == JStr("ikea");
    assert RequiredString(b, "name", 3) && RequiredString(b, "description", 10);
    assert RequiredString(b, "category", 3) && RequiredString(b, "company", 3);
    assert ValidateProductSchema(b, isUri);
    assert "garden" !in Categories;
  }

  /** Creating a product with a fresh id that no review refers to keeps the
      catalogue's invariants. */
  lemma CreateProductKeepsValid(shop: Shop, callerId: string, body: Body, newId: string, isUri: string -> bool)
    requires Valid(shop)
    requires FindProduct(shop.products, newId).None?
    requires forall i :: 0 <= i < |shop.reviews| ==> shop.reviews[i].product != newId
    ensures Valid(CreateProduct(shop, callerId, body, newId, isUri).state)
  {
    var r := CreateProduct(shop, callerId, body, newId, isUri);
    if r.reply.Ok? {
      var ps := r.state.products;
      RatingsOfEmpty(shop.reviews, newId);
      forall k | 0 <= k < |ps| ensures Summarises(ps, shop.reviews, k) {
        if k < |shop.products| {
          assert Summarises(shop.products, shop.reviews, k);
        }
      }
    }
  }

  // ---------------------------------------------------------------------
  // Listing

  datatype Page = Page(total: nat, current: int, pages: int, productData: seq<Product>)

  const DefaultPageSize: nat := 10
  const DefaultPageNumber: nat := 1

  function OrDefault(x: Option<int>, d: int): int {
    if x.Some? then x.value else d
  }

  function Min(a: int, b: int): int { if a <= b then a else b }

  /** How many products precede page `number` of `size` products. */
  function Offset(size: int, number: int): (r: nat)
    requires size >= 1 && number >= 1
    ensures r == (number - 1) * size
  {
    MulSign(number - 1, size);
    (number - 1) * size
  }

  /** `find().skip(offset).limit(size)`: at most `size` consecutive
      products starting at position `offset`. */
  function PageSlice(products: seq<Product>, offset: nat, size: int): (data: seq<Product>)
    requires size >= 1
    ensures |data| <= size
    ensures forall k :: 0 <= k < |data| ==> offset + k < |products| && data[k] == products[offset + k]
    ensures |data| == 0 <==> |products| <= offset
    ensures offset + size <= |products| ==> |data| == size
    ensures offset < |products| < offset + size ==> |data| == |products| - offset
  {
    var lo := Min(offset, |products|);
    var hi := Min(offset + size, |products|);
    products[lo..hi]
  }

  /** getAllProducts: page `pageNumber` (default 1) of `pageSize` (default 10)
      products, skipping `(pageNumber - 1) * pageSize` of them; `total` counts
      every product and `pages` is `ceil(total / pageSize)`. */
  function GetAllProducts(products: seq<Product>, pageSize: Option<int>, pageNumber: Option<int>)
    : (r: Page)
    requires pageSize.Some? ==> pageSize.value >= 1
    requires pageNumber.Some? ==> pageNumber.value >= 1
    ensures var size, number := OrDefault(pageSize, DefaultPageSize), OrDefault(pageNumber, DefaultPageNumber);
            var offset := Offset(size, number);
            && r.total == |products|
            && r.current == number
            && (r.pages - 1) * size < |products| <= r.pages * size
            && |r.productData| <= size
            && (forall k :: 0 <= k < |r.productData| ==> offset + k < |products| && r.productData[k] == products[offset + k])
            && (|r.productData| == 0 <==> |products| <= offset)
            && (offset + size <= |products| ==> |r.productData| == size)
            && (offset < |products| < offset + size ==> |r.productData| == |products| - offset)
  {
    var size := OrDefault(pageSize, DefaultPageSize);
    var number := OrDefault(pageNumber, DefaultPageNumber);
    var pages := CeilDiv(|products|, size);
    assert (pages - 1) * size < |products| <= pages * size;
    Page(|products|, number, pages, PageSlice(products, Offset(size, number), size))
  }

  /** Every product is listed on exactly one page: product `i` is item
      `i % size` of page `i / size + 1`, and that page is within `pages`. */
  lemma ProductOnItsPage(products: seq<Product>, size: int, i: nat)
    requires size >= 1 && i < |products|
    ensures var page := GetAllProducts(products, Some(size), Some(i / size + 1));
            && i % size < |page.productData|
            && page.productData[i % size] == products[i]
            && i / size + 1 <= page.pages
  {
    var q, m := i / size, i % size;
    DivMod(i, size);
    var page := GetAllProducts(products, Some(size), Some(q + 1));
    var offset := Offset(size, q + 1);
    assert offset == q * size;
    assert offset + m == i < |products|;
    assert m < |page.productData|;
    assert page.productData[m] == products[offset + m];
    var pages := page.pages;
    assert q * size < pages * size;
    assert (pages - q) * size == pages * size - q * size;
    MulSign(pages - q, size);
  }

  /** Position `i` is item `i % size` of the page starting at `(i / size) * size`. */
  lemma DivMod(i: nat, size: int)
    requires size >= 1
    ensures i == (i / size) * size + i % size && 0 <= i % size < size
  {
  }

  /** Pages past `pages`, the rounded-up quotient of the product count by
      the page size, are empty. */
  lemma PagesPastTheEndAreEmpty(products: seq<Product>, size: int, number: int)
    requires size >= 1 && number >= 1
    requires number > CeilDiv(|products|, size)
    ensures GetAllProducts(products, Some(size), Some(number)).productData == []
  {
    var page := GetAllProducts(products, Some(size), Some(number));
    assert (number - 1) * size - page.pages * size == (number - 1 - page.pages) * size;
    MulSign(number - 1 - page.pages, size);
  }

  // ---------------------------------------------------------------------
  // Reading and deleting

  function ProductNotFound(id: string): Error {
    BadRequest("Product with id " + id + " not found")
  }

  /** getSingleProduct: an id the ObjectId cast refuses throws; otherwise
      the first product with that id, or a BadRequest. */
  function GetSingleProduct(products: seq<Product>, id: string, isObjectId: string -> bool)
    : (r: Result<Product>)
    ensures !isObjectId(id) ==> r == Err(CastFailure)
    ensures isObjectId(id) ==> (r.Err? <==> forall k :: 0 <= k < |products| ==> products[k].id != id)
    ensures isObjectId(id) && r.Err? ==> r.error == ProductNotFound(id)
    ensures r.Ok? ==> r.value in products && r.value.id == id
  {
    if !isObjectId(id) then Err(CastFailure)
    else match FindProduct(products, id)
      case None => Err(ProductNotFound(id))
      case Some(k) => Ok(products[k])
  }

  /** Every review not about `id` (the pre-remove hook's `deleteMany`). */
  function ReviewsKept(reviews: seq<Review>, id: string): seq<Review> {
    Filter(reviews, (rv: Review) => rv.product != id)
  }

  /** deleteProduct: an id the ObjectId cast refuses throws and a missing id
      is a BadRequest, both with nothing changed;
      otherwise that product is removed, every review of it is deleted and
      every other review and product is kept. */
  function DeleteProduct(shop: Shop, id: string, isObjectId: string -> bool): (r: Step<Shop, string>)
    ensures !isObjectId(id) ==> r == Step(shop, Err(CastFailure))
    ensures isObjectId(id) && FindProduct(shop.products, id).None? ==> r == Step(shop, Err(ProductNotFound(id)))
    ensures isObjectId(id) && FindProduct(shop.products, id).Some? ==>
              r.reply == Ok("Product with id " + id + " deleted successfully")
    ensures r.reply.Ok? ==>
              && FindProduct(shop.products, id).Some?
              && var k := FindProduct(shop.products, id).value;
                 && shop.products[k].id == id
                 && r.state.products == RemoveAt(shop.products, k)
    ensures r.reply.Ok? ==> forall i :: 0 <= i < |r.state.reviews| ==>
              r.state.reviews[i] in shop.reviews && r.state.reviews[i].product != id
    ensures r.reply.Ok? ==> forall i :: 0 <= i < |shop.reviews| && shop.reviews[i].product != id ==>
              shop.reviews[i] in r.state.reviews
  {
    if !isObjectId(id) then Step(shop, Err(CastFailure))
    else match FindProduct(shop.products, id)
    case None => Step(shop, Err(ProductNotFound(id)))
    case Some(k) =>
      Step(Shop(RemoveAt(shop.products, k), ReviewsKept(shop.reviews, id)),
           Ok("Product with id " + id + " deleted successfully"))
  }

  /** Deleting a product keeps the catalogue's invariants: the products that
      remain have exactly the reviews they had. */
  lemma DeleteProductKeepsValid(shop: Shop, id: string, isObjectId: string -> bool)
    requires Valid(shop)
    ensures Valid(DeleteProduct(shop, id, isObjectId).state)
  {
    var r := DeleteProduct(shop, id, isObjectId);
    if r.reply.Ok? {
      var k := FindProduct(shop.products, id).value;
      var ps := r.state.products;
      RemoveKeepsUniqueIds(shop.products, k);
      FilterKeepsUniquePairs(shop.reviews, (rv: Review) => rv.product != id);
      forall j | 0 <= j < |ps| ensures Summarises(ps, r.state.reviews, j) {
        var j' := if j < k then j else j + 1;
        assert ps[j] == shop.products[j'];
        assert Summarises(shop.products, shop.reviews, j');
        assert ps[j].id != id;
        RatingsOfCascade(shop.reviews, id, ps[j].id);
      }
    }
  }
}

=== FILE: reviews.dfy ===
/** controllers/reviewController.js and models/Review.js: creating, reading,
    updating and deleting reviews, and the recompute of the reviewed
    product's rating aggregate that runs after every save and remove. */
module Reviews {
  import opened Common
  import opened Joi
  import opened Gate
  import opened ShopModel
  import Products

  const AlreadyReviewed: Error := BadRequest("You already left a review for this product")

  function ReviewNotFound(id: string): Error {
    NotFound("Review with id " + id + " not found")
  }

  /** validateReviewSchema: a rating in [1, 5], a title, a comment, and the
      two ids, nothing else. */
  predicate ValidateReviewSchema(b: Body) {
    && OnlyKeys(b, {"rating", "title", "comment", "user", "product"})
    && RequiredNumberIn(b, "rating", 1, 5)
    && RequiredString(b, "title", 0)
    && RequiredString(b, "comment", 0)
    && RequiredObject(b, "user")
    && RequiredObject(b, "product")
  }

  /** calculateAverageRating: the first product with that id gets the
      rounded-up mean of its reviews' ratings and their count; every other
      product is untouched. With no review left, `result[0]` is undefined
      and reading its count throws, so nothing is updated. */
  function CalculateAverageRating(products: seq<Product>, reviews: seq<Review>, pid: string)
    : (r: Result<seq<Product>>)
    ensures r.Err? <==> forall i :: 0 <= i < |reviews| ==> reviews[i].product != pid
    ensures r.Err? ==> r.error == TypeFailure
    ensures r.Ok? ==> |r.value| == |products|
    ensures r.Ok? ==> forall k :: 0 <= k < |products| ==> r.value[k].id == products[k].id
    ensures r.Ok? ==> forall k :: 0 <= k < |products| && FindProduct(products, pid) != Some(k) ==>
              r.value[k] == products[k]
    ensures r.Ok? && FindProduct(products, pid).Some? ==>
              var k := FindProduct(products, pid).value;
              && Summarises(r.value, reviews, k)
              && r.value[k].(averageRating := products[k].averageRating,
                             numberOfReviews := products[k].numberOfReviews) == products[k]
  {
    var rs := RatingsOf(reviews, pid);
    RatingsOfEmpty(reviews, pid);
    if |rs| == 0 then Err(TypeFailure)
    else match FindProduct(products, pid)
      case None => Ok(products)
      case Some(k) => Ok(products[k := products[k].(averageRating := CeilMean(rs), numberOfReviews := |rs|)])
  }

  /** After the recompute for the one product whose reviews changed, every
      product summarises its reviews again. */
  lemma RecomputeRestores(products: seq<Product>, reviews: seq<Review>, pid: string)
    requires UniqueProductIds(products)
    requires ConsistentExcept(products, reviews, pid)
    requires CalculateAverageRating(products, reviews, pid).Ok?
    ensures var ps := CalculateAverageRating(products, reviews, pid).value;
            UniqueProductIds(ps) && Consistent(ps, reviews)
  {
    var ps := CalculateAverageRating(products, reviews, pid).value;
    forall k | 0 <= k < |ps| ensures Summarises(ps, reviews, k) {
      if products[k].id != pid {
        assert Summarises(products, reviews, k);
        assert FindProduct(products, pid) != Some(k);
      } else {
        SameIdSameIndex(products, FindProduct(products, pid).value, k);
      }
    }
  }

  lemma SameIdSameIndex(products: seq<Product>, j: nat, k: nat)
    requires UniqueProductIds(products) && j < |products| && k < |products|
    requires products[j].id == products[k].id
    ensures j == k
  {
  }

  /** A product whose reviews all rate within [1, 5] gets an average within
      [1, 5]. */
  lemma AverageWithinRange(products: seq<Product>, reviews: seq<Review>, pid: string)
    requires forall i :: 0 <= i < |reviews| ==> 1 <= reviews[i].rating <= 5
    requires CalculateAverageRating(products, reviews, pid).Ok?
    requires FindProduct(products, pid).Some?
    ensures var k := FindProduct(products, pid).value;
            1 <= CalculateAverageRating(products, reviews, pid).value[k].averageRating <= 5
  {
    RatingsWithin(reviews, pid);
    RatingsOfEmpty(reviews, pid);
    CeilMeanBounds(RatingsOf(reviews, pid), 1, 5);
  }

  lemma {:induction false} RatingsWithin(reviews: seq<Review>, pid: string)
    requires forall i :: 0 <= i < |reviews| ==> 1 <= reviews[i].rating <= 5
    ensures forall i :: 0 <= i < |RatingsOf(reviews, pid)| ==> 1 <= RatingsOf(reviews, pid)[i] <= 5
  {
    if |reviews| > 0 {
      assert forall i :: 1 <= i < |reviews| ==> reviews[1..][i - 1] == reviews[i];
      RatingsWithin(reviews[1..], pid);
      var head := if reviews[0].product == pid then [reviews[0].rating] else [];
      var tail := RatingsOf(reviews[1..], pid);
      assert RatingsOf(reviews, pid) == head + tail;
      forall i | 0 <= i < |head + tail| ensures 1 <= (head + tail)[i] <= 5 {
        if i < |head| {
          assert (head + tail)[i] == reviews[0].rating;
        } else {
          assert (head + tail)[i] == tail[i - |head|];
        }
      }
    }
  }

  // ---------------------------------------------------------------------
  // Creating

  /** The body as the handler validates it: `user` is the caller and
      `product` has been turned into an ObjectId. */
  function Stamped(body: Body, callerId: string, pid: string): Body {
    body["user" := JId(callerId)]["product" := JId(pid)]
  }

  /** The product id a body names: `None` when the key is absent, an error
      when the ObjectId constructor refuses the value. */
  function ProductIdOf(body: Body, isObjectId: string -> bool): Result<Option<string>> {
    if "product" !in body then Ok(None)
    else match body["product"]
      case JStr(s) => if isObjectId(s) then Ok(Some(s)) else Err(CastFailure)
      case JId(s) => Ok(Some(s))
      case _ => Err(CastFailure)
  }

  /** createReview: the author is always the caller. A product id the
      ObjectId constructor refuses throws first; a body Joi refuses is a 400;
      a product that does not exist and a second review by the same caller
      are BadRequests; all of these write nothing. Otherwise exactly one
      review is added (title trimmed) and the product's aggregate recomputed. */
  function CreateReview(shop: Shop, callerId: string, body: Body, newId: string,
                        isObjectId: string -> bool): (r: Step<Shop, Review>)
    ensures ProductIdOf(body, isObjectId).Err? ==> r == Step(shop, Err(CastFailure))
    ensures ProductIdOf(body, isObjectId).Ok? && !ValidateReviewSchema(Stamped(body, callerId, "")) ==>
              r == Step(shop, Err(Invalid))
    ensures ProductIdOf(body, isObjectId) == Ok(None) && ValidateReviewSchema(Stamped(body, callerId, "")) ==>
              r == Step(shop, Err(Products.ProductNotFound("undefined")))
    ensures r.reply.Err? ==> r.state == shop
    ensures r.reply.Ok? ==>
              var rv := r.reply.value;
              && ValidateReviewSchema(Stamped(body, callerId, ""))
              && rv.rating == body["rating"].n && rv.title == Trim(body["title"].s)
              && rv.comment == body["comment"].s
              && ProductIdOf(body, isObjectId) == Ok(Some(rv.product))
              && rv.user == callerId && rv.id == newId
              && FindProduct(shop.products, rv.product).Some?
              && !HasReview(shop.reviews, rv.product, callerId)
              && 1 <= rv.rating <= 5 && rv.title != ""
              && r.state.reviews == shop.reviews + [rv]
              && CalculateAverageRating(shop.products, r.state.reviews, rv.product) == Ok(r.state.products)
    ensures ProductIdOf(body, isObjectId).Ok? && ProductIdOf(body, isObjectId).value.Some? ==>
              var pid := ProductIdOf(body, isObjectId).value.value;
              && (ValidateReviewSchema(Stamped(body, callerId, "")) && FindProduct(shop.products, pid).None? ==>
                    r == Step(shop, Err(Products.ProductNotFound(pid))))
              && (ValidateReviewSchema(Stamped(body, callerId, "")) && FindProduct(shop.products, pid).Some?
                    && HasReview(shop.reviews, pid, callerId) ==>
                    r == Step(shop, Err(AlreadyReviewed)))
              && (ValidateReviewSchema(Stamped(body, callerId, "")) && FindProduct(shop.products, pid).Some?
                    && !HasReview(shop.reviews, pid, callerId) ==>
                    (r.reply.Ok? <==> Trim(body["title"].s) != ""))
  {
    match ProductIdOf(body, isObjectId)
    case Err(e) => Step(shop, Err(e))
    case Ok(productId) =>
      if !ValidateReviewSchema(Stamped(body, callerId, "")) then Step(shop, Err(Invalid))
      else if productId.None? then Step(shop, Err(Products.ProductNotFound("undefined")))
      else
        var pid := productId.value;
        if FindProduct(shop.products, pid).None? then Step(shop, Err(Products.ProductNotFound(pid)))
        else if HasReview(shop.reviews, pid, callerId) then Step(shop, Err(AlreadyReviewed))
        else
          var rv := Review(newId, body["rating"].n, Trim(body["title"].s), body["comment"].s, callerId, pid);
          if rv.title == "" then Step(shop, Err(SchemaViolation))
          else
            var reviews' := shop.reviews + [rv];
            assert reviews'[|shop.reviews|].product == pid;
            match CalculateAverageRating(shop.products, reviews', pid)
            case Err(e) => Step(shop.(reviews := reviews'), Err(e))
            case Ok(ps) => Step(Shop(ps, reviews'), Ok(rv))
  }

  /** A successful create keeps the invariants: the new review is the
      caller's only one for that product, and the product's aggregate now
      counts it. */
  lemma CreateReviewKeepsValid(shop: Shop, callerId: string, body: Body, newId: string,
                               isObjectId: string -> bool)
    requires Valid(shop)
    ensures Valid(CreateReview(shop, callerId, body, newId, isObjectId).state)
  {
    var r := CreateReview(shop, callerId, body, newId, isObjectId);
    if r.reply.Ok? {
      var rv := r.reply.value;
      var reviews' := shop.reviews + [rv];
      var pid := rv.product;
      forall q | q != pid ensures RatingsOf(reviews', q) == RatingsOf(shop.reviews, q) {
        RatingsOfAppend(shop.reviews, rv, q);
      }
      TransferConsistency(shop.products, shop.reviews, reviews', pid);
      RecomputeRestores(shop.products, reviews', pid);
      forall i, j | 0 <= i < j < |reviews'|
        ensures reviews'[i].product != reviews'[j].product || reviews'[i].user != reviews'[j].user
      {
        if j == |shop.reviews| {
          assert reviews'[j] == rv;
          assert !(reviews'[i].product == pid && reviews'[i].user == callerId);
        }
      }
    }
  }

  /** Whatever author a body names, the review is the caller's. */
  lemma AuthorIsCaller(shop: Shop, callerId: string, claimed: string, body: Body, newId: string,
                       isObjectId: string -> bool)
    ensures CreateReview(shop, callerId, body["user" := JId(claimed)], newId, isObjectId)
            == CreateReview(shop, callerId, body, newId, isObjectId)
  {
    var b := body["user" := JId(claimed)];
    assert ProductIdOf(b, isObjectId) == ProductIdOf(body, isObjectId);
    assert forall pid :: Stamped(b, callerId, pid) == Stamped(body, callerId, pid);
  }

  // ---------------------------------------------------------------------
  // Reading, updating, deleting

  /** getSingleReview: an id the ObjectId cast refuses throws; otherwise the
      first review with that id, or NotFound. */
  function GetSingleReview(reviews: seq<Review>, id: string, isObjectId: string -> bool)
    : (r: Result<Review>)
    ensures !isObjectId(id) ==> r == Err(CastFailure)
    ensures isObjectId(id) ==> (r.Err? <==> forall i :: 0 <= i < |reviews| ==> reviews[i].id != id)
    ensures isObjectId(id) && r.Err? ==> r.error == ReviewNotFound(id)
    ensures r.Ok? ==> r.value in reviews && r.value.id == id
  {
    if !isObjectId(id) then Err(CastFailure)
    else match FindReview(reviews, id)
      case None => Err(ReviewNotFound(id))
      case Some(i) => Ok(reviews[i])
  }

  /** The partial update: a truthy supplied value replaces the stored one, a
      missing or falsy one keeps it; a new title is trimmed when set. */
  function Merge(rv: Review, rating: Option<int>, title: Option<string>, comment: Option<string>): (m: Review)
    ensures m.(rating := rv.rating, title := rv.title, comment := rv.comment) == rv
    ensures m.rating == (if TruthyNum(rating) then rating.value else rv.rating)
    ensures m.title == (if TruthyStr(title) then Trim(title.value) else rv.title)
    ensures m.comment == (if TruthyStr(comment) then comment.value else rv.comment)
  {
    rv.(rating := if TruthyNum(rating) then rating.value else rv.rating,
        title := if TruthyStr(title) then Trim(title.value) else rv.title,
        comment := if TruthyStr(comment) then comment.value else rv.comment)
  }

  /** updateReview: an id the ObjectId cast refuses throws, a missing review
      is NotFound, a caller the permission
      check refuses gets its error, a supplied title that trims to nothing
      fails the schema; all of these write nothing. Otherwise the merged
      review replaces the old one in place and the product's aggregate is
      recomputed. The rating range is not checked again. */
  function UpdateReview(shop: Shop, caller: RequestUser, reviewId: string,
                        rating: Option<int>, title: Option<string>, comment: Option<string>,
                        checkPermissions: (RequestUser, string) -> Option<Error>,
                        isObjectId: string -> bool)
    : (r: Step<Shop, Review>)
    ensures !isObjectId(reviewId) ==> r == Step(shop, Err(CastFailure))
    ensures isObjectId(reviewId) && FindReview(shop.reviews, reviewId).None? ==>
              r == Step(shop, Err(ReviewNotFound(reviewId)))
    ensures isObjectId(reviewId) && FindReview(shop.reviews, reviewId).Some? ==>
              var i := FindReview(shop.reviews, reviewId).value;
              var rv := shop.reviews[i];
              && (checkPermissions(caller, rv.user).Some? ==>
                    r == Step(shop, Err(checkPermissions(caller, rv.user).value)))
              && (r.reply.Ok? ==>
                    && checkPermissions(caller, rv.user).None?
                    && r.reply.value == Merge(rv, rating, title, comment)
                    && r.state.reviews == shop.reviews[i := r.reply.value])
              && (checkPermissions(caller, rv.user).None? && Merge(rv, rating, title, comment).title != "" ==>
                    r.reply.Ok?)
              && (checkPermissions(caller, rv.user).None? && Merge(rv, rating, title, comment).title == "" ==>
                    r == Step(shop, Err(SchemaViolation)))
    ensures r.reply.Err? ==> r.state == shop
    ensures r.reply.Ok? ==> CalculateAverageRating(shop.products, r.state.reviews, r.reply.value.product)
                            == Ok(r.state.products)
  {
    if !isObjectId(reviewId) then Step(shop, Err(CastFailure))
    else match FindReview(shop.reviews, reviewId)
    case None => Step(shop, Err(ReviewNotFound(reviewId)))
    case Some(i) =>
      var rv := shop.reviews[i];
      match checkPermissions(caller, rv.user)
      case Some(e) => Step(shop, Err(e))
      case None =>
        var saved := Merge(rv, rating, title, comment);
        if saved.title == "" then Step(shop, Err(SchemaViolation))
        else
          var reviews' := shop.reviews[i := saved];
          assert reviews'[i].product == rv.product;
          match CalculateAverageRating(shop.products, reviews', rv.product)
          case Err(e) => Step(shop, Err(e))
          case Ok(ps) => Step(Shop(ps, reviews'), Ok(saved))
  }

  /** Updating keeps the invariants. */
  lemma UpdateReviewKeepsValid(shop: Shop, caller: RequestUser, reviewId: string,
                               rating: Option<int>, title: Option<string>, comment: Option<string>,
                               checkPermissions: (RequestUser, string) -> Option<Error>,
                               isObjectId: string -> bool)
    requires Valid(shop)
    ensures Valid(UpdateReview(shop, caller, reviewId, rating, title, comment, checkPermissions, isObjectId).state)
  {
    var r := UpdateReview(shop, caller, reviewId, rating, title, comment, checkPermissions, isObjectId);
    if r.reply.Ok? {
      var i := FindReview(shop.reviews, reviewId).value;
      var rv := shop.reviews[i];
      var saved := r.reply.value;
      var reviews' := shop.reviews[i := saved];
      var pid := rv.product;
      forall q | q != pid ensures RatingsOf(reviews', q) == RatingsOf(shop.reviews, q) {
        RatingsOfUpdate(shop.reviews, i, saved, q);
      }
      TransferConsistency(shop.products, shop.reviews, reviews', pid);
      RecomputeRestores(shop.products, reviews', pid);
      forall a, b | 0 <= a < b < |reviews'|
        ensures reviews'[a].product != reviews'[b].product || reviews'[a].user != reviews'[b].user
      {
        assert shop.reviews[a].product != shop.reviews[b].product || shop.reviews[a].user != shop.reviews[b].user;
      }
    }
  }

  /** deleteReview: an id the ObjectId cast refuses throws, a missing review
      is NotFound and a refused caller gets
      the permission error, both with nothing changed. Otherwise the review
      is removed; the recompute then fails when it was the product's last
      review, and the removal stands while the product keeps its old
      aggregate. */
  function DeleteReview(shop: Shop, caller: RequestUser, reviewId: string,
                        checkPermissions: (RequestUser, string) -> Option<Error>,
                        isObjectId: string -> bool)
    : (r: Step<Shop, ()>)
    ensures !isObjectId(reviewId) ==> r == Step(shop, Err(CastFailure))
    ensures isObjectId(reviewId) && FindReview(shop.reviews, reviewId).None? ==>
              r == Step(shop, Err(ReviewNotFound(reviewId)))
    ensures isObjectId(reviewId) && FindReview(shop.reviews, reviewId).Some? ==>
              var i := FindReview(shop.reviews, reviewId).value;
              var rv := shop.reviews[i];
              && (checkPermissions(caller, rv.user).Some? ==>
                    r == Step(shop, Err(checkPermissions(caller, rv.user).value)))
              && (checkPermissions(caller, rv.user).None? ==>
                    && r.state.reviews == RemoveAt(shop.reviews, i)
                    && (r.reply.Err? <==> forall j :: 0 <= j < |r.state.reviews| ==> r.state.reviews[j].product != rv.product)
                    && (r.reply.Err? ==> r == Step(shop.(reviews := RemoveAt(shop.reviews, i)), Err(TypeFailure)))
                    && (r.reply.Ok? ==> CalculateAverageRating(shop.products, r.state.reviews, rv.product)
                                        == Ok(r.state.products)))
  {
    if !isObjectId(reviewId) then Step(shop, Err(CastFailure))
    else match FindReview(shop.reviews, reviewId)
    case None => Step(shop, Err(ReviewNotFound(reviewId)))
    case Some(i) =>
      var rv := shop.reviews[i];
      match checkPermissions(caller, rv.user)
      case Some(e) => Step(shop, Err(e))
      case None =>
        var reviews' := RemoveAt(shop.reviews, i);
        match CalculateAverageRating(shop.products, reviews', rv.product)
        case Err(e) => Step(shop.(reviews := reviews'), Err(e))
        case Ok(ps) => Step(Shop(ps, reviews'), Ok(()))
  }

  /** Deleting keeps the invariants, including when the recompute fails: a
      product with no review left is not constrained. */
  lemma DeleteReviewKeepsValid(shop: Shop, caller: RequestUser, reviewId: string,
                               checkPermissions: (RequestUser, string) -> Option<Error>,
                               isObjectId: string -> bool)
    requires Valid(shop)
    ensures Valid(DeleteReview(shop, caller, reviewId, checkPermissions, isObjectId).state)
  {
    var r := DeleteReview(shop, caller, reviewId, checkPermissions, isObjectId);
    if r.state != shop {
      var i := FindReview(shop.reviews, reviewId).value;
      var rv := shop.reviews[i];
      var reviews' := RemoveAt(shop.reviews, i);
      var pid := rv.product;
      RemoveKeepsUniquePairs(shop.reviews, i);
      forall q | q != pid ensures RatingsOf(reviews', q) == RatingsOf(shop.reviews, q) {
        RatingsOfRemove(shop.reviews, i, q);
      }
      TransferConsistency(shop.products, shop.reviews, reviews', pid);
      if r.reply.Ok? {
        RecomputeRestores(shop.products, reviews', pid);
      } else {
        RatingsOfEmpty(reviews', pid);
        forall k | 0 <= k < |shop.products| ensures Summarises(shop.products, reviews', k) {
        }
      }
    }
  }

  /** Deleting a product's only review fails the recompute and leaves the
      product claiming one review although none remains. */
  lemma LastReviewLeavesStaleCount(shop: Shop, caller: RequestUser, reviewId: string,
                                   checkPermissions: (RequestUser, string) -> Option<Error>,
                                   isObjectId: string -> bool, k: nat)
    requires Valid(shop)
    requires isObjectId(reviewId) && FindReview(shop.reviews, reviewId).Some?
    requires var rv := shop.reviews[FindReview(shop.reviews, reviewId).value];
             && checkPermissions(caller, rv.user).None?
             && k < |shop.products| && shop.products[k].id == rv.product
             && forall j :: 0 <= j < |shop.reviews| && shop.reviews[j].product == rv.product ==> shop.reviews[j] == rv
    ensures var r := DeleteReview(shop, caller, reviewId, checkPermissions, isObjectId);
            && r.reply == Err(TypeFailure)
            && r.state.products[k].numberOfReviews == 1
            && RatingsOf(r.state.reviews, shop.products[k].id) == []
  {
    var i := FindReview(shop.reviews, reviewId).value;
    var rv := shop.reviews[i];
    var reviews' := RemoveAt(shop.reviews, i);
    forall j | 0 <= j < |reviews'| ensures reviews'[j].product != rv.product {
      var j' := if j < i then j else j + 1;
      assert reviews'[j] == shop.reviews[j'];
      UniqueReviewOfPair(shop.reviews, i, j');
    }
    RatingsOfEmpty(reviews', rv.product);
    assert RatingsOf(shop.reviews, rv.product) == [rv.rating] by {
      OnlyRating(shop.reviews, i, rv.product);
    }
    assert Summarises(shop.products, shop.reviews, k);
  }

  /** Two positions holding the same review break the (product, user) index. */
  lemma UniqueReviewOfPair(reviews: seq<Review>, i: nat, j: nat)
    requires UniquePairs(reviews) && i < |reviews| && j < |reviews| && i != j
    ensures reviews[i] != reviews[j]
  {
    if i < j {
      assert reviews[i].product != reviews[j].product || reviews[i].user != reviews[j].user;
    } else {
      assert reviews[j].product != reviews[i].product || reviews[j].user != reviews[i].user;
    }
  }

  /** A product reviewed only at position `i` has exactly that rating. */
  lemma {:induction false} OnlyRating(reviews: seq<Review>, i: nat, pid: string)
    requires i < |reviews| && reviews[i].product == pid
    requires UniquePairs(reviews)
    requires forall j :: 0 <= j < |reviews| && reviews[j].product == pid ==> reviews[j] == reviews[i]
    ensures RatingsOf(reviews, pid) == [reviews[i].rating]
  {
    var rest := reviews[1..];
    if i == 0 {
      forall j | 0 <= j < |rest| ensures rest[j].product != pid {
        assert rest[j] == reviews[j + 1];
        UniqueReviewOfPair(reviews, 0, j + 1);
      }
      RatingsOfEmpty(rest, pid);
    } else {
      UniqueReviewOfPair(reviews, 0, i);
      assert UniquePairs(rest) by {
        forall a, b | 0 <= a < b < |rest|
          ensures rest[a].product != rest[b].product || rest[a].user != rest[b].user
        {
          assert rest[a] == reviews[a + 1] && rest[b] == reviews[b + 1];
        }
      }
      assert forall j :: 0 <= j < |rest| && rest[j].product == pid ==> rest[j] == rest[i - 1] by {
        forall j | 0 <= j < |rest| && rest[j].product == pid ensures rest[j] == rest[i - 1] {
          assert rest[j] == reviews[j + 1];
        }
      }
      OnlyRating(rest, i - 1, pid);
    }
  }
}

=== FILE: shop.dfy ===
/** The product and review documents (models/Product.js, models/Review.js)
    and the collection invariants the catalogue handlers keep: unique
    product ids, at most one review per (product, user), and product rating
    aggregates that agree with the reviews they summarise. */
module ShopModel {
  import opened Common

  datatype Product = Product(
    id: string,
    name: string,
    price: int,            // cents
    description: string,
    image: string,
    category: string,
    company: string,
    colors: seq<string>,
    featured: bool,
    freeShipping: bool,
    inventory: int,
    averageRating: int,
    numberOfReviews: int,
    user: string)

  datatype Review = Review(id: string, rating: int, title: string, comment: string,
                           user: string, product: string)

  datatype Shop = Shop(products: seq<Product>, reviews: seq<Review>)

  /** Schema defaults of the product document. */
  const DefaultPrice: int := 0
  const DefaultImage := "/uploads/product-sample.jpeg"
  const DefaultColors: seq<string> := ["#000"]
  const DefaultInventory: int := 0
  const DefaultRating: int := 0

  /** The schema enums and the description length bound. */
  const Categories: set<string> := {"office", "kitchen", "bedroom"}
  const Companies: set<string> := {"ikea", "liddy", "marcos"}
  const MaxDescription: nat := 1000

  /** What the persisted schema's validators accept on create. */
  predicate SchemaAccepts(p: Product) {
    p.category in Categories && p.company in Companies && Utf16Length(p.description) <= MaxDescription
  }

  /** `Product.findOne({_id: id})`. */
  function FindProduct(products: seq<Product>, id: string): Option<nat> {
    IndexOf(products, (p: Product) => p.id == id)
  }

  /** `Review.findOne({_id: id})`. */
  function FindReview(reviews: seq<Review>, id: string): Option<nat> {
    IndexOf(reviews, (r: Review) => r.id == id)
  }

  /** `Review.findOne({product, user})` finds a document. */
  predicate HasReview(reviews: seq<Review>, product: string, user: string) {
    exists i :: 0 <= i < |reviews| && reviews[i].product == product && reviews[i].user == user
  }

  predicate UniqueProductIds(products: seq<Product>) {
    forall i, j :: 0 <= i < j < |products| ==> products[i].id != products[j].id
  }

  /** The unique index on (product, user). */
  predicate UniquePairs(reviews: seq<Review>) {
    forall i, j :: 0 <= i < j < |reviews| ==>
      reviews[i].product != reviews[j].product || reviews[i].user != reviews[j].user
  }

  /** The ratings of one product's reviews, in store order (`$match`). */
  function RatingsOf(reviews: seq<Review>, product: string): seq<int> {
    if |reviews| == 0 then []
    else (if reviews[0].product == product then [reviews[0].rating] else []) + RatingsOf(reviews[1..], product)
  }

  function Sum(xs: seq<int>): int {
    if |xs| == 0 then 0 else xs[0] + Sum(xs[1..])
  }

  /** Math.ceil of the `$avg` of a non-empty list of ratings. */
  function CeilMean(xs: seq<int>): int
    requires |xs| > 0
  {
    CeilDiv(Sum(xs), |xs|)
  }

  /** Product `k`'s aggregates summarise its reviews, if it has any. */
  predicate Summarises(products: seq<Product>, reviews: seq<Review>, k: int)
    requires 0 <= k < |products|
  {
    var rs := RatingsOf(reviews, products[k].id);
    |rs| > 0 ==> products[k].averageRating == CeilMean(rs) && products[k].numberOfReviews == |rs|
  }

  /** Every product other than `except` summarises its reviews. */
  predicate ConsistentExcept(products: seq<Product>, reviews: seq<Review>, except: string) {
    forall k :: 0 <= k < |products| && products[k].id != except ==> Summarises(products, reviews, k)
  }

  predicate Consistent(products: seq<Product>, reviews: seq<Review>) {
    forall k :: 0 <= k < |products| ==> Summarises(products, reviews, k)
  }

  predicate Valid(shop: Shop) {
    && UniqueProductIds(shop.products)
    && UniquePairs(shop.reviews)
    && Consistent(shop.products, shop.reviews)
  }

  lemma {:induction false} RatingsOfAppend(reviews: seq<Review>, r: Review, product: string)
    ensures RatingsOf(reviews + [r], product)
            == RatingsOf(reviews, product) + (if r.product == product then [r.rating] else [])
  {
    if |reviews| == 0 {
      assert reviews + [r] == [r];
    } else {
      assert (reviews + [r])[1..] == reviews[1..] + [r];
      RatingsOfAppend(reviews[1..], r, product);
    }
  }

  /** Replacing a review of another product leaves a product's ratings alone. */
  lemma {:induction false} RatingsOfUpdate(reviews: seq<Review>, i: nat, r: Review, product: string)
    requires i < |reviews| && reviews[i].product != product && r.product != product
    ensures RatingsOf(reviews[i := r], product) == RatingsOf(reviews, product)
  {
    if i == 0 {
      assert reviews[i := r][1..] == reviews[1..];
    } else {
      assert reviews[i := r][1..] == reviews[1..][i - 1 := r];
      RatingsOfUpdate(reviews[1..], i - 1, r, product);
    }
  }

  /** Removing a review of another product leaves a product's ratings alone. */
  lemma {:induction false} RatingsOfRemove(reviews: seq<Review>, i: nat, product: string)
    requires i < |reviews| && reviews[i].product != product
    ensures RatingsOf(RemoveAt(reviews, i), product) == RatingsOf(reviews, product)
  {
    if i == 0 {
      assert RemoveAt(reviews, 0) == reviews[1..];
    } else {
      assert RemoveAt(reviews, i)[0] == reviews[0];
      assert RemoveAt(reviews, i)[1..] == RemoveAt(reviews[1..], i - 1);
      RatingsOfRemove(reviews[1..], i - 1, product);
    }
  }

  /** Dropping every review of one product leaves the others' ratings alone. */
  lemma {:induction false} RatingsOfCascade(reviews: seq<Review>, gone: string, product: string)
    requires gone != product
    ensures RatingsOf(Filter(reviews, (r: Review) => r.product != gone), product) == RatingsOf(reviews, product)
  {
    if |reviews| > 0 {
      RatingsOfCascade(reviews[1..], gone, product);
    }
  }

  /** A product has no ratings exactly when no review refers to it. */
  lemma {:induction false} RatingsOfEmpty(reviews: seq<Review>, product: string)
    ensures |RatingsOf(reviews, product)| == 0 <==> forall i :: 0 <= i < |reviews| ==> reviews[i].product != product
  {
    if |reviews| > 0 {
      RatingsOfEmpty(reviews[1..], product);
      assert forall i :: 1 <= i < |reviews| ==> reviews[i] == reviews[1..][i - 1];
    }
  }

  /** Ratings each within [lo, hi] have a sum within [lo * n, hi * n]. */
  lemma {:induction false} SumBounds(xs: seq<int>, lo: int, hi: int)
    requires forall i :: 0 <= i < |xs| ==> lo <= xs[i] <= hi
    ensures lo * |xs| <= Sum(xs) <= hi * |xs|
  {
    if |xs| > 0 {
      SumBounds(xs[1..], lo, hi);
    }
  }

  lemma MulSign(a: int, n: int)
    requires n > 0
    ensures a * n < 0 ==> a < 0
    ensures a * n >= 0 ==> a >= 0
    ensures a * n > 0 ==> a > 0
  {
  }

  /** The rounded-up mean of ratings within [lo, hi] is itself within [lo, hi]. */
  lemma CeilMeanBounds(xs: seq<int>, lo: int, hi: int)
    requires |xs| > 0
    requires forall i :: 0 <= i < |xs| ==> lo <= xs[i] <= hi
    ensures lo <= CeilMean(xs) <= hi
  {
    SumBounds(xs, lo, hi);
    var q, n := CeilMean(xs), |xs|;
    MulSign(q - 1 - hi, n);
    MulSign(q - lo, n);
  }

  /** Dropping the first review keeps at most one review per pair. */
  lemma TailKeepsUniquePairs(reviews: seq<Review>)
    requires |reviews| > 0 && UniquePairs(reviews)
    ensures UniquePairs(reviews[1..])
  {
    var rest := reviews[1..];
    forall i, j | 0 <= i < j < |rest|
      ensures rest[i].product != rest[j].product || rest[i].user != rest[j].user
    {
      assert rest[i] == reviews[i + 1] && rest[j] == reviews[j + 1];
    }
  }

  /** A review put in front of reviews taken from the ones after it keeps at
      most one review per pair. */
  lemma ConsKeepsUniquePairs(reviews: seq<Review>, f: seq<Review>)
    requires |reviews| > 0 && UniquePairs(reviews) && UniquePairs(f)
    requires forall k :: 0 <= k < |f| ==> f[k] in reviews[1..]
    ensures UniquePairs([reviews[0]] + f)
  {
    var r := [reviews[0]] + f;
    forall i, j | 0 <= i < j < |r|
      ensures r[i].product != r[j].product || r[i].user != r[j].user
    {
      if i == 0 {
        assert r[j] == f[j - 1] && f[j - 1] in reviews[1..];
        var k :| 0 <= k < |reviews| - 1 && reviews[1..][k] == f[j - 1];
        assert reviews[k + 1] == r[j];
      } else {
        assert r[i] == f[i - 1] && r[j] == f[j - 1];
      }
    }
  }

  /** A `find` keeps at most one review per (product, user). */
  lemma {:induction false} FilterKeepsUniquePairs(reviews: seq<Review>, p: Review -> bool)
    requires UniquePairs(reviews)
    ensures UniquePairs(Filter(reviews, p))
  {
    if |reviews| > 0 {
      TailKeepsUniquePairs(reviews);
      FilterKeepsUniquePairs(reviews[1..], p);
      if p(reviews[0]) {
        ConsKeepsUniquePairs(reviews, Filter(reviews[1..], p));
      }
    }
  }

  /** Removing one document keeps ids unique. */
  lemma RemoveKeepsUniqueIds(products: seq<Product>, k: nat)
    requires k < |products| && UniqueProductIds(products)
    ensures UniqueProductIds(RemoveAt(products, k))
  {
    var r := RemoveAt(products, k);
    forall i, j | 0 <= i < j < |r| ensures r[i].id != r[j].id {
      var i' := if i < k then i else i + 1;
      var j' := if j < k then j else j + 1;
      assert r[i] == products[i'] && r[j] == products[j'];
    }
  }

  /** Removing one review keeps at most one review per (product, user). */
  lemma RemoveKeepsUniquePairs(reviews: seq<Review>, k: nat)
    requires k < |reviews| && UniquePairs(reviews)
    ensures UniquePairs(RemoveAt(reviews, k))
  {
    var r := RemoveAt(reviews, k);
    forall i, j | 0 <= i < j < |r| ensures r[i].product != r[j].product || r[i].user != r[j].user {
      var i' := if i < k then i else i + 1;
      var j' := if j < k then j else j + 1;
      assert r[i] == reviews[i'] && r[j] == reviews[j'];
    }
  }

  /** Ratings unchanged for every product but `changed` keep every other
      product's aggregates right. */
  lemma TransferConsistency(products: seq<Product>, before: seq<Review>, after: seq<Review>, changed: string)
    requires ConsistentExcept(products, before, changed)
    requires forall q :: q != changed ==> RatingsOf(after, q) == RatingsOf(before, q)
    ensures ConsistentExcept(products, after, changed)
  {
    forall k | 0 <= k < |products| && products[k].id != changed
      ensures Summarises(products, after, k)
    {
      assert Summarises(products, before, k);
      assert RatingsOf(after, products[k].id) == RatingsOf(before, products[k].id);
    }
  }
}

=== FILE: uploads.dfy ===
/** utils/uploadsController.js: the checks an uploaded product image must
    pass, in order, before it is handed to the image host, and the removal of
    the temporary file afterwards. The host is a parameter. */
module Uploads {
  import opened Common

  /** An uploaded file as the handler reads it. The handler reads a property
      named `mimeType`, which is absent (undefined) unless the file object
      carries exactly that key. */
  datatype UploadedFile = UploadedFile(mimeType: Option<string>, size: int, tempFilePath: string)

  /** The file object express-fileupload builds: its MIME type is stored
      under `mimetype`, so `mimeType` is absent whatever was uploaded. */
  function FromFileUpload(mimetype: string, size: int, tempFilePath: string): UploadedFile {
    UploadedFile(None, size, tempFilePath)
  }

  /** `req.files`: absent, or present with or without a `productImage`. */
  datatype Files = NoFiles | Files(productImage: Option<UploadedFile>)

  /** What the handler does outside the process, in order. */
  datatype Effect = Upload(path: string) | Unlink(path: string)

  datatype Outcome = Outcome(effects: seq<Effect>, reply: Result<string>)

  const MaxSize: int := 1024 * 1024
  const NoFile: Error := BadRequest("No file uploaded")
  const NotAnImage: Error := BadRequest("Please provide a valid product image")
  const TooLarge: Error := BadRequest("File exceeds maximum size of 1mb")

  predicate StartsWith(s: string, prefix: string) {
    |prefix| <= |s| && s[..|prefix|] == prefix
  }

  /** The three checks, in the order the handler makes them. */
  predicate Acceptable(files: Files) {
    && files.Files?
    && files.productImage.Some?
    && files.productImage.value.mimeType.Some?
    && StartsWith(files.productImage.value.mimeType.value, "image/")
    && files.productImage.value.size <= MaxSize
  }

  /** uploadProductImage: no files is a BadRequest; files without a
      `productImage`, or one without a `mimeType`, make the handler
      dereference undefined; a MIME type not
      starting with `image/` and a size over 1 MiB are BadRequests. Only a
      file passing all three is uploaded, and its temporary file is removed
      only once the upload has succeeded. */
  function UploadProductImage(files: Files, upload: string -> Result<string>): (r: Outcome)
    ensures files.NoFiles? ==> r == Outcome([], Err(NoFile))
    ensures files.Files? && files.productImage.None? ==> r == Outcome([], Err(TypeFailure))
    ensures files.Files? && files.productImage.Some? ==>
              var f := files.productImage.value;
              && (f.mimeType.None? ==> r == Outcome([], Err(TypeFailure)))
              && (f.mimeType.Some? && !StartsWith(f.mimeType.value, "image/") ==> r == Outcome([], Err(NotAnImage)))
              && (f.mimeType.Some? && StartsWith(f.mimeType.value, "image/") && f.size > MaxSize ==>
                    r == Outcome([], Err(TooLarge)))
    ensures |r.effects| > 0 <==> Acceptable(files)
    ensures Acceptable(files) ==>
              var path := files.productImage.value.tempFilePath;
              && r.effects[0] == Upload(path)
              && (upload(path).Ok? ==> r == Outcome([Upload(path), Unlink(path)], upload(path)))
              && (upload(path).Err? ==> r == Outcome([Upload(path)], Err(External)))
    ensures r.reply.Ok? <==> Acceptable(files) && upload(files.productImage.value.tempFilePath).Ok?
  {
    match files
    case NoFiles => Outcome([], Err(NoFile))
    case Files(image) =>
      match image
      case None => Outcome([], Err(TypeFailure))
      case Some(f) =>
        if f.mimeType.None? then Outcome([], Err(TypeFailure))
        else if !StartsWith(f.mimeType.value, "image/") then Outcome([], Err(NotAnImage))
        else if f.size > MaxSize then Outcome([], Err(TooLarge))
        else match upload(f.tempFilePath)
          case Err(_) => Outcome([Upload(f.tempFilePath)], Err(External))
          case Ok(url) => Outcome([Upload(f.tempFilePath), Unlink(f.tempFilePath)], Ok(url))
  }

  /** A temporary file is only removed after it has been uploaded. */
  lemma UnlinkFollowsUpload(files: Files, upload: string -> Result<string>, k: nat)
    requires k < |UploadProductImage(files, upload).effects|
    requires UploadProductImage(files, upload).effects[k].Unlink?
    ensures 0 < k
    ensures UploadProductImage(files, upload).effects[k - 1] == Upload(UploadProductImage(files, upload).effects[k].path)
    ensures UploadProductImage(files, upload).reply.Ok?
  {
  }

  /** The size bound is inclusive: exactly 1 MiB passes, one byte more does not. */
  lemma SizeBoundInclusive(mimeType: string, path: string, upload: string -> Result<string>)
    requires StartsWith(mimeType, "image/")
    ensures Acceptable(Files(Some(UploadedFile(Some(mimeType), 1048576, path))))
    ensures UploadProductImage(Files(Some(UploadedFile(Some(mimeType), 1048577, path))), upload).reply == Err(TooLarge)
  {
  }

  /** With the file objects express-fileupload builds, no upload request
      ever succeeds: every request carrying a `productImage` throws the
      TypeError before the MIME and size checks, and nothing is uploaded. */
  lemma FileUploadObjectsNeverPass(mimetype: string, size: int, path: string, upload: string -> Result<string>)
    ensures UploadProductImage(Files(Some(FromFileUpload(mimetype, size, path))), upload) == Outcome([], Err(TypeFailure))
    ensures !Acceptable(Files(Some(FromFileUpload(mimetype, size, path))))
  {
  }
}

=== FILE: user_admin.dfy ===
/** controllers/userController.js: listing accounts by role, reading one,
    the current user, and the two profile updates. `checkPermissions` is a
    parameter: the error it throws for a caller and an owner id, if any. */
module UserAdmin {
  import opened Common
  import opened Jwt
  import opened Users
  import opened Gate
  import Auth

  datatype Reply =
    | Updated(user: PublicUser, token: Token, cookie: Cookie)
    | Done(msg: string)

  const SamePassword: Error := BadRequest("New password must not be the same as old password")
  const NoCaller: Error := Unauthorized("Unauthorized access")
  const PasswordMismatch: Error := Unauthorized("Password mismatch")
  const PasswordUpdated := "Password was updated successfully"

  function PublicAll(users: seq<Account>): (r: seq<PublicUser>)
    ensures |r| == |users|
    ensures forall i :: 0 <= i < |users| ==> r[i] == Public(users[i])
  {
    if |users| == 0 then [] else [Public(users[0])] + PublicAll(users[1..])
  }

  /** `User.find({role}).select('-password')`, refused with NotFound when
      empty: exactly the accounts of that role, in store order. */
  function ListRole(users: seq<Account>, role: Role, emptyMsg: string): (r: Result<seq<PublicUser>>)
    ensures r.Err? <==> forall i :: 0 <= i < |users| ==> users[i].role != role
    ensures r.Err? ==> r.error == NotFound(emptyMsg)
    ensures r.Ok? ==> forall k :: 0 <= k < |r.value| ==> r.value[k].role == role
    ensures r.Ok? ==> forall i :: 0 <= i < |users| && users[i].role == role ==> Public(users[i]) in r.value
    ensures r.Ok? ==> |r.value| == |WithRole(users, role)|
    ensures r.Ok? ==> forall k :: 0 <= k < |r.value| ==> r.value[k] == Public(WithRole(users, role)[k])
  {
    var found := WithRole(users, role);
    if |found| == 0 then
      assert forall i :: 0 <= i < |users| ==> users[i].role != role by {
        forall i | 0 <= i < |users| ensures users[i].role != role {
          assert users[i] !in found;
        }
      }
      Err(NotFound(emptyMsg))
    else
      assert found[0] in users;
      Ok(PublicAll(found))
  }

  /** The listing keeps store order: an account stored last is listed last
      when it has the role, and leaves the listing unchanged otherwise. */
  lemma ListRoleSnoc(users: seq<Account>, a: Account, role: Role, emptyMsg: string)
    requires ListRole(users, role, emptyMsg).Ok?
    ensures a.role == role ==>
      ListRole(users + [a], role, emptyMsg) == Ok(ListRole(users, role, emptyMsg).value + [Public(a)])
    ensures a.role != role ==> ListRole(users + [a], role, emptyMsg) == ListRole(users, role, emptyMsg)
  {
    WithRoleSnoc(users, a, role);
    var found := WithRole(users, role);
    var grown := WithRole(users + [a], role);
    assert |found| > 0;
    assert |grown| > 0;
    assert ListRole(users, role, emptyMsg) == Ok(PublicAll(found));
    assert ListRole(users + [a], role, emptyMsg) == Ok(PublicAll(grown));
    if a.role == role {
      assert grown == found + [a];
      PublicAllSnoc(found, a);
      assert PublicAll(grown) == PublicAll(found) + [Public(a)];
    } else {
      assert grown == found;
    }
  }

  lemma PublicAllSnoc(users: seq<Account>, a: Account)
    ensures PublicAll(users + [a]) == PublicAll(users) + [Public(a)]
  {
    assert PublicAll(users + [a]) == PublicAll(users) + [Public(a)];
  }

  /** getAllUsers: only accounts with role `user`. */
  function GetAllUsers(users: seq<Account>): (r: Result<seq<PublicUser>>)
    ensures r.Err? <==> forall i :: 0 <= i < |users| ==> users[i].role != User
    ensures r.Ok? ==> forall k :: 0 <= k < |r.value| ==> r.value[k].role == User
    ensures r.Ok? ==> forall i :: 0 <= i < |users| && users[i].role == User ==> Public(users[i]) in r.value
    ensures r.Ok? ==> |r.value| == |WithRole(users, User)|
    ensures r.Ok? ==> forall k :: 0 <= k < |r.value| ==> r.value[k] == Public(WithRole(users, User)[k])
  {
    ListRole(users, User, "No user found")
  }

  /** getAllAdmins: only accounts with role `admin`. */
  function GetAllAdmins(users: seq<Account>): (r: Result<seq<PublicUser>>)
    ensures r.Err? <==> forall i :: 0 <= i < |users| ==> users[i].role != Admin
    ensures r.Ok? ==> forall k :: 0 <= k < |r.value| ==> r.value[k].role == Admin
    ensures r.Ok? ==> forall i :: 0 <= i < |users| && users[i].role == Admin ==> Public(users[i]) in r.value
    ensures r.Ok? ==> |r.value| == |WithRole(users, Admin)|
    ensures r.Ok? ==> forall k :: 0 <= k < |r.value| ==> r.value[k] == Public(WithRole(users, Admin)[k])
  {
    ListRole(users, Admin, "No admin found")
  }

  /** getSingleUser: a malformed id is a BadRequest and an absent account a
      NotFound, both decided before the permission check, so they answer
      every caller alike; a found account is returned only when the
      permission check passes. */
  function GetSingleUser(users: seq<Account>, id: string, isObjectId: string -> bool,
                         caller: RequestUser, checkPermissions: (RequestUser, string) -> Option<Error>)
    : (r: Result<PublicUser>)
    ensures !isObjectId(id) ==> r == Err(BadRequest("Invalid user id"))
    ensures isObjectId(id) && FindById(users, id).None? ==>
              r == Err(NotFound("User with id " + id + " does not exist"))
    ensures isObjectId(id) && FindById(users, id).Some? ==>
              var a := users[FindById(users, id).value];
              && (checkPermissions(caller, a.id).Some? ==> r == Err(checkPermissions(caller, a.id).value))
              && (checkPermissions(caller, a.id).None? ==> r == Ok(Public(a)))
    ensures r.Ok? ==> r.value.id == id
  {
    if !isObjectId(id) then Err(BadRequest("Invalid user id"))
    else match FindById(users, id)
      case None => Err(NotFound("User with id " + id + " does not exist"))
      case Some(i) =>
        match checkPermissions(caller, users[i].id)
        case Some(e) => Err(e)
        case None => Ok(Public(users[i]))
  }

  /** Account ids are unique, as `_id` values are. */
  predicate UniqueIds(users: seq<Account>) {
    forall i, j :: 0 <= i < j < |users| ==> users[i].id != users[j].id
  }

  /** In a store with unique ids, every stored account with a well-formed id
      is what getSingleUser answers for that id, without its password, to a
      caller the permission check admits. */
  lemma SingleUserFindsStored(users: seq<Account>, a: Account, isObjectId: string -> bool,
                              caller: RequestUser, checkPermissions: (RequestUser, string) -> Option<Error>)
    requires UniqueIds(users) && a in users && isObjectId(a.id)
    requires checkPermissions(caller, a.id).None?
    ensures GetSingleUser(users, a.id, isObjectId, caller, checkPermissions) == Ok(Public(a))
  {
    var m :| 0 <= m < |users| && users[m] == a;
    assert users[m].id == a.id;
    var i := FindById(users, a.id).value;
    assert users[i].id == a.id;
    assert forall j :: 0 <= j < |users| && j != m ==> users[j].id != a.id;
  }

  /** showCurrentUser: whatever `req.user` holds, refused exactly when absent. */
  function ShowCurrentUser<U>(user: Option<U>): (r: Result<U>)
    ensures r.Err? <==> user.None?
    ensures r.Err? ==> r.error == Unauthenticated("Unauthorized access")
    ensures r.Ok? ==> r.value == user.value
  {
    match user
    case None => Err(Unauthenticated("Unauthorized access"))
    case Some(u) => Ok(u)
  }

  /** updateUser: `findOneAndUpdate` without `{new: true}` hands back the
      document as it was before the update, so the reply and the new access
      token carry the old name and e-mail while the store holds the new ones.
      An absent account makes the handler dereference null; an e-mail taken
      by another account is refused by the unique index. */
  function UpdateUser(st: Auth.AuthStore, c: Auth.Crypto, callerId: string, body: Body, now: nat,
                      nodeEnv: string): (r: Step<Auth.AuthStore, Reply>)
    ensures r.state.tokens == st.tokens
    ensures !ValidateUpdateUser(body, c.isEmail) ==> r == Step(st, Err(Invalid))
    ensures ValidateUpdateUser(body, c.isEmail) && FindById(st.users, callerId).None? ==>
              r == Step(st, Err(TypeFailure))
    ensures r.reply.Ok? ==>
              && ValidateUpdateUser(body, c.isEmail)
              && FindById(st.users, callerId).Some?
              && var i := FindById(st.users, callerId).value;
                 && r.state.users == st.users[i := st.users[i].(name := body["name"].s, email := body["email"].s)]
                 && r.reply.value == Updated(Public(st.users[i]),
                                            CreateJWT(c.jwt, AccessPayload(st.users[i]), now),
                                            AttachCookiesToResponse(CreateJWT(c.jwt, AccessPayload(st.users[i]), now), now, nodeEnv))
    ensures r.reply.Err? ==> r.state == st
    ensures ValidateUpdateUser(body, c.isEmail) && FindById(st.users, callerId).Some? ==>
              var i := FindById(st.users, callerId).value;
              (r.reply.Ok? <==> forall j :: 0 <= j < |st.users| && j != i ==> st.users[j].email != body["email"].s)
              && (r.reply.Err? ==> r.reply == Err(SchemaViolation))
    ensures Auth.Valid(st) ==> Auth.Valid(r.state)
  {
    if !ValidateUpdateUser(body, c.isEmail) then Step(st, Err(Invalid))
    else match FindById(st.users, callerId)
      case None => Step(st, Err(TypeFailure))
      case Some(i) =>
        var email := body["email"].s;
        if exists j :: 0 <= j < |st.users| && j != i && st.users[j].email == email then
          Step(st, Err(SchemaViolation))
        else
          var before := st.users[i];
          var users' := st.users[i := before.(name := body["name"].s, email := email)];
          var token := CreateJWT(c.jwt, AccessPayload(before), now);
          Step(st.(users := users'), Ok(Updated(Public(before), token, AttachCookiesToResponse(token, now, nodeEnv))))
  }

  /** updateUserPassword: a body Joi refuses is answered with 400 before any
      lookup; a new password equal to the old one ignoring case is refused; an
      absent account or a wrong old password is Unauthorized with nothing
      changed. On success only the password changes, stored hashed. */
  function UpdateUserPassword(st: Auth.AuthStore, c: Auth.Crypto, callerId: string, body: Body)
    : (r: Step<Auth.AuthStore, Reply>)
    ensures r.state.tokens == st.tokens
    ensures r.reply.Err? ==> r.state == st
    ensures !ValidateUpdatePassword(body) ==> r.reply == Err(Invalid)
    ensures ValidateUpdatePassword(body) && Lower(body["newPassword"].s) == Lower(body["oldPassword"].s) ==>
              r.reply == Err(SamePassword)
    ensures ValidateUpdatePassword(body) && Lower(body["newPassword"].s) != Lower(body["oldPassword"].s) ==>
              && (FindById(st.users, callerId).None? ==> r.reply == Err(NoCaller))
              && (FindById(st.users, callerId).Some? ==>
                    var i := FindById(st.users, callerId).value;
                    && (!c.bcryptCompare(body["oldPassword"].s, st.users[i].password) ==>
                          r.reply == Err(PasswordMismatch))
                    && (c.bcryptCompare(body["oldPassword"].s, st.users[i].password) ==>
                          r == Step(st.(users := st.users[i := st.users[i].(password := c.bcryptHash(body["newPassword"].s))]),
                                    Ok(Done(PasswordUpdated)))))
    ensures Auth.Valid(st) ==> Auth.Valid(r.state)
  {
    if !ValidateUpdatePassword(body) then Step(st, Err(Invalid))
    else
      var newPassword := body["newPassword"].s;
      var oldPassword := body["oldPassword"].s;
      if Lower(newPassword) == Lower(oldPassword) then Step(st, Err(SamePassword))
      else match FindById(st.users, callerId)
        case None => Step(st, Err(NoCaller))
        case Some(i) =>
          var a := st.users[i];
          if !c.bcryptCompare(oldPassword, a.password) then Step(st, Err(PasswordMismatch))
          else
            var saved := PreSave(a.(password := newPassword), true, c.bcryptHash);
            Step(st.(users := st.users[i := saved]), Ok(Done(PasswordUpdated)))
  }
}

=== FILE: users.dfy ===
/** models/User.js: the account document, its Joi validators, the pre-save
    password hashing rule and the claim shapes of the two tokens. */
module Users {
  import opened Common
  import opened Jwt
  import opened Joi

  /** The `role` enum; 'user' is the schema default. */
  datatype Role = Admin | User

  function RoleName(r: Role): string {
    match r
    case Admin => "admin"
    case User => "user"
  }

  const DefaultRole: Role := User

  /** `passwordTokenExpirationDate`: never set (undefined), cleared (null), or
      an instant in milliseconds. */
  datatype Expiry = Unset | Null | At(ms: int)

  datatype Account = Account(
    id: string,
    name: string,
    email: string,
    password: string,                 // the stored bcrypt hash
    role: Role,
    verificationToken: Option<string>,
    isVerified: bool,
    verified: Option<int>,
    passwordToken: Option<string>,
    passwordTokenExpirationDate: Expiry)

  /** A freshly created document: the schema defaults apply to every path
      the creator does not give. */
  function NewAccount(id: string, name: string, email: string, password: string,
                      role: Role, verificationToken: Option<string>): Account
  {
    Account(id, name, email, password, role, verificationToken, false, None, None, Unset)
  }

  /** A user document as the API returns it, without the `password` path
      (`user.password = undefined` or `.select('-password')`). */
  datatype PublicUser = PublicUser(
    id: string,
    name: string,
    email: string,
    role: Role,
    verificationToken: Option<string>,
    isVerified: bool,
    verified: Option<int>,
    passwordToken: Option<string>,
    passwordTokenExpirationDate: Expiry)

  function Public(a: Account): PublicUser {
    PublicUser(a.id, a.name, a.email, a.role, a.verificationToken, a.isVerified,
               a.verified, a.passwordToken, a.passwordTokenExpirationDate)
  }

  /** The schema's `minlength` on `password`, checked by `save` against the
      plain value before any pre-save hook hashes it. */
  const MinPasswordLength: nat := 8

  /** validateUserSchema: name of at least 3 characters, a well-formed
      e-mail address, a password of at least 8 characters, nothing else. */
  predicate ValidateUserSchema(b: Body, isEmail: string -> bool) {
    && OnlyKeys(b, {"name", "email", "password"})
    && RequiredString(b, "name", 3)
    && RequiredEmail(b, "email", isEmail)
    && RequiredString(b, "password", 8)
  }

  /** validateUpdatePassword: both passwords present, each at least 8 long. */
  predicate ValidateUpdatePassword(b: Body) {
    && OnlyKeys(b, {"oldPassword", "newPassword"})
    && RequiredString(b, "oldPassword", 8)
    && RequiredString(b, "newPassword", 8)
  }

  /** validateUpdateUser: a name of at least 3 characters and an e-mail. */
  predicate ValidateUpdateUser(b: Body, isEmail: string -> bool) {
    && OnlyKeys(b, {"name", "email"})
    && RequiredString(b, "name", 3)
    && RequiredEmail(b, "email", isEmail)
  }

  /** validateLogin: an e-mail and a non-empty password of any length. */
  predicate ValidateLogin(b: Body, isEmail: string -> bool) {
    && OnlyKeys(b, {"email", "password"})
    && RequiredEmail(b, "email", isEmail)
    && RequiredString(b, "password", 0)
  }

  /** A login body may carry a password no registration body could: login
      places no length floor on it. */
  lemma LoginAcceptsShortPasswords(email: string, isEmail: string -> bool)
    requires email != "" && isEmail(email)
    ensures ValidateLogin(map["email" := JStr(email), "password" := JStr("x")], isEmail)
    ensures !ValidateUserSchema(map["name" := JStr("abc"), "email" := JStr(email), "password" := JStr("x")], isEmail)
  {
    var reg := map["name" := JStr("abc"), "email" := JStr(email), "password" := JStr("x")];
    assert Utf16Length(reg["password"].s) < 8;
  }

  /** The pre-save hook: the password path is re-hashed exactly when it was
      modified; every other path, and an unmodified password, is saved as is. */
  function PreSave(doc: Account, passwordModified: bool, bcrypt: string -> string): (saved: Account)
    ensures saved.(password := doc.password) == doc
    ensures passwordModified ==> saved.password == bcrypt(doc.password)
    ensures !passwordModified ==> saved == doc
  {
    if passwordModified then doc.(password := bcrypt(doc.password)) else doc
  }

  /** The `{name, id, role}` claims of `createJWT`. */
  function TokenUserOf(a: Account): TokenUser {
    TokenUser(a.name, a.id, RoleName(a.role))
  }

  function AccessPayload(a: Account): Payload {
    AccessClaims(TokenUserOf(a))
  }

  /** `createRefreshJWT(user, refreshToken)`: `{user: {name, id, role}, refreshToken}`. */
  function RefreshPayload(a: Account, refreshToken: string): Payload {
    RefreshClaims(TokenUserOf(a), refreshToken)
  }

  /** Both token shapes carry the same identity; only the refresh one carries
      the session secret, and the two can never be confused for each other. */
  lemma PayloadShapes(a: Account, refreshToken: string)
    ensures AccessPayload(a).user == RefreshPayload(a, refreshToken).user
    ensures AccessPayload(a).user == TokenUser(a.name, a.id, RoleName(a.role))
    ensures AccessPayload(a) != RefreshPayload(a, refreshToken)
    ensures RefreshPayload(a, refreshToken).refreshToken == refreshToken
  {
  }

  /** `User.findOne({email})`. */
  function FindByEmail(users: seq<Account>, email: string): Option<nat> {
    IndexOf(users, (a: Account) => a.email == email)
  }

  /** `User.findOne({_id: id})`. */
  function FindById(users: seq<Account>, id: string): Option<nat> {
    IndexOf(users, (a: Account) => a.id == id)
  }

  /** `User.find({role})`, without passwords. */
  function WithRole(users: seq<Account>, r: Role): (found: seq<Account>)
    ensures forall a :: multiset(found)[a] == if a.role == r then multiset(users)[a] else 0
  {
    FilterCount(users, (a: Account) => a.role == r);
    Filter(users, (a: Account) => a.role == r)
  }

  /** `find` keeps store order: an account stored last comes out last. */
  lemma WithRoleSnoc(users: seq<Account>, a: Account, r: Role)
    ensures WithRole(users + [a], r) == WithRole(users, r) + (if a.role == r then [a] else [])
  {
    FilterSnoc(users, a, (x: Account) => x.role == r);
  }

  /** `User.countDocuments({role: 'admin'})`. */
  function AdminCount(users: seq<Account>): nat {
    |WithRole(users, Admin)|
  }

  /** The unique index on `email`. */
  predicate UniqueEmails(users: seq<Account>) {
    forall i, j :: 0 <= i < j < |users| ==> users[i].email != users[j].email
  }

  /** No admin is counted exactly when no account has the admin role. */
  lemma {:induction false} AdminCountZero(users: seq<Account>)
    ensures AdminCount(users) == 0 <==> forall i :: 0 <= i < |users| ==> users[i].role != Admin
  {
    if exists i :: 0 <= i < |users| && users[i].role == Admin {
      var i :| 0 <= i < |users| && users[i].role == Admin;
      assert users[i] in WithRole(users, Admin);
    }
    if AdminCount(users) > 0 {
      var w := WithRole(users, Admin);
      assert w[0] in users && w[0].role == Admin;
    }
  }
}
